=== FILE: README.md ===
# BrewFlasher CLI: flash-command builder, option resolution and flashing pipeline

This project models the deterministic core of the BrewFlasher command-line flasher in Dafny and
proves properties of the model. The flasher picks a firmware from the BrewFlasher.com catalog,
settles the baud rate and the erase choice, and asks for two confirmations. It then downloads
the artifacts and flashes them to an ESP32, ESP32-S2, ESP32-C3 or ESP8266 with esptool, or to an
ATmega328P board with avrdude. Two editions exist:

- `brewflasher_cli.py`: the older, esptool-only edition (`flash_firmware_using_esptool`).
- `src/brewflasher_cli/brewflasher_cli_edition.py`: the newer edition
  (`flash_firmware_using_whatever_is_appropriate`). It adds avrdude support and `--dont-erase-flash`.

The modules, one per file:

- `Catalog` (catalog.dfy): the Project → DeviceFamily → Firmware records, and the lookup of a
  firmware by id. The lookup is a nested scan with no early exit, so the last match wins.
- `Text` (text.dfy): the yes/no test `input().strip().lower() in ["y", "yes"]`, with Python's
  whitespace set, and `str()` of a baud rate.
- `Options` (options.dfy): the baud rate and the erase choice from flags, prompts and the avrdude
  override, for both editions.
- `FlashPlan` (flash_plan.dfy): a declarative reference. It says which (address, file) segments a
  family and firmware call for, in which order, and how a plan becomes an esptool vector. It also
  holds the avrdude command template.
- `Builder` (builder.dfy): the newer edition's builder, proved equal to the rendered plan, to the
  avrdude template, or to the matching error.
- `LegacyBuilder` (legacy_builder.dfy): the older builder with its literal per-chip lists. It is
  proved equal to the rendered plan and to the newer builder on esptool families.
- `Pipeline` (pipeline.dfy): both flash functions as runs over outcome oracles. The oracles are
  the web check, the download, the 1200 bps touch and the backend.
- `Session` (session.dfy): both `main`s. Every outside answer is an input.
- `Scenarios` (scenarios.dfy): worked examples with concrete records.

Outside effects are parameters. These are: the website, `pre_flash_web_verify`,
`download_to_file`, `full_filepath` (an `ArtifactPaths` record), the menus and prompts (their
answers), the serial scan (the device it returns), `shutil.which` (two booleans),
`serial.Serial`, `esptool.main` and `subprocess.run` (enumerated outcomes).

Points where the code's behaviour is easy to misread, and which the model follows:

- The newer `main` removes the downloads only when the flash function returns. When it raises,
  the exception escapes and nothing is removed. The older `main` never removes them.
- A flash function that returns False still ends in "Done!" and exit status 0.
- Inside both flash functions the family name is checked only after the web check and the
  download. The newer flash function checks the flash method there too. The older `main`
  rejects a non-esptool method before it calls its flash function (brewflasher_cli.py:105-114).
- The success path of both flash functions falls off the end and returns None, not True.
- For avrdude the newer `main` sets erase to True, with a comment that avrdude always erases
  (src/brewflasher_cli/brewflasher_cli_edition.py:71). The avrdude command, however, passes `-D`,
  which disables auto-erase (line 285), and takes no baud rate. Neither value reaches avrdude.
- The avrdude exit status is not inspected: `subprocess.run` is called without `check`, so only
  an exception counts as a failure.

## Model

| member | source | states |
|---|---|---|
| Catalog.FamilyEntries | src/brewflasher_cli/brewflasher_cli_edition.py:55 | the selections under one family are its firmware, in order, each paired with that family |
| Catalog.LastMatchIsLast | src/brewflasher_cli/brewflasher_cli_edition.py:53-58 | the lookup result is absent exactly when no entry has the id; otherwise it is a matching entry with no match after it |
| Catalog.LastMatchAppend | src/brewflasher_cli/brewflasher_cli_edition.py:53-58 | a match in a later part of the scan overrides any match in an earlier part |
| Catalog.EntriesCoverCatalog | src/brewflasher_cli/brewflasher_cli_edition.py:53-55 | every firmware under every family of every project is visited by the scan |
| Catalog.ScanFirmware | src/brewflasher_cli/brewflasher_cli_edition.py:55-58 | the inner loop leaves the last matching firmware of one family, or the value held before |
| Catalog.ScanFamilies | src/brewflasher_cli/brewflasher_cli_edition.py:54-58 | the middle loop leaves the last match among one project's families, or the value held before |
| Catalog.FindFirmware | brewflasher_cli.py:42-51 | the nested scan with no early exit returns the last catalog entry with the id, and that entry is in the catalog with that id |
| Text.StripStart | brewflasher_cli.py:18 | `lstrip()` removes exactly a leading run of whitespace and leaves a result that does not start with whitespace |
| Text.StripEnd | brewflasher_cli.py:18 | `rstrip()` removes exactly a trailing run of whitespace and leaves a result that does not end with whitespace |
| Text.LowerIsYes | brewflasher_cli.py:18 | lower-casing gives `y` exactly for `y` or `Y`, and `yes` exactly for a three-letter y, e, s with each letter in either case |
| Text.AffirmativeIffPaddedYes | src/brewflasher_cli/brewflasher_cli_edition.py:19-23 | an answer confirms exactly when it is y or yes, in any letter case, with only whitespace around it |
| Text.AffirmativeIsPadded | src/brewflasher_cli/brewflasher_cli_edition.py:83-85 | an accepted answer has the shape: whitespace, y or yes, whitespace |
| Text.PaddedIsAffirmative | src/brewflasher_cli/brewflasher_cli_edition.py:83-85 | every answer of that shape is accepted |
| Text.DecimalString | src/brewflasher_cli/brewflasher_cli_edition.py:238 | `str()` of a rate is a non-empty digit string without a leading zero |
| Text.DecimalRoundTrip | src/brewflasher_cli/brewflasher_cli_edition.py:238 | reading the rendered rate back as a decimal gives the rate |
| Text.DecimalStringInjective | src/brewflasher_cli/brewflasher_cli_edition.py:238 | distinct rates render as distinct `--baud` values |
| Options.BaudArgument | src/brewflasher_cli/brewflasher_cli_edition.py:76-79 | a `--baud` string passes through unchanged; a menu or override rate becomes the digits that denote it |
| Options.ResolveChoices | src/brewflasher_cli/brewflasher_cli_edition.py:64-98 | avrdude forces 115200 baud and erasing with no prompt; otherwise `--baud` or the menu; `--erase-flash` beats `--dont-erase-flash`; the erase prompt is asked only when neither flag is given and then decides |
| Options.ResolveChoicesLegacy | brewflasher_cli.py:64-80 | the baud comes from `--baud` or the menu; the erase choice is the flag's value when given, else the prompt's answer |
| Options.AnswersMatterOnlyWhenAsked | src/brewflasher_cli/brewflasher_cli_edition.py:76-98 | a prompt's answer changes nothing when that prompt is not shown |
| Options.SingleFlagDecides | src/brewflasher_cli/brewflasher_cli_edition.py:92-95 | `--erase-flash` alone erases, whatever the flash method; `--dont-erase-flash` alone does not erase, for an esptool family |
| Options.ResolutionMatchesLegacy | brewflasher_cli.py:64-80 | without `--dont-erase-flash`, the newer edition settles an esptool family's options as the older one does |
| FlashPlan.ChipOfFamily | src/brewflasher_cli/brewflasher_cli_edition.py:232-253 | each of the four family names maps to its own chip; every other name has none |
| FlashPlan.SelectedAreIncluded | src/brewflasher_cli/brewflasher_cli_edition.py:243-266 | only artifacts whose gate holds get a segment, at that artifact's own address and file |
| FlashPlan.IncludedAreSelected | src/brewflasher_cli/brewflasher_cli_edition.py:243-266 | every artifact whose gate holds gets a segment |
| FlashPlan.SelectionKeepsOrder | src/brewflasher_cli/brewflasher_cli_edition.py:241-266 | segments follow the fixed order: firmware, partitions, bootloader, spiffs, otadata |
| FlashPlan.PlanSegmentsSpelledOut | src/brewflasher_cli/brewflasher_cli_edition.py:241-266 | the segments are the firmware, then each optional artifact's segment in turn |
| FlashPlan.PlanFor | src/brewflasher_cli/brewflasher_cli_edition.py:232-266 | a plan holds the firmware first, a segment for an artifact exactly when its gate holds, each at its own address, in the fixed order |
| FlashPlan.PairsAt | src/brewflasher_cli/brewflasher_cli_edition.py:241-266 | the i-th segment is spelled as its address at position 2i and its file at 2i+1 |
| FlashPlan.Render | src/brewflasher_cli/brewflasher_cli_edition.py:269-275 | the vector opens with `--port P`, ends with `-fs detect`, and has `--erase-all` just before that when erasing |
| FlashPlan.EraseOnlyInsertsFlag | src/brewflasher_cli/brewflasher_cli_edition.py:270-271 | erasing changes the vector only by inserting `--erase-all` before `-fs detect` |
| FlashPlan.EraseFlagPresentIff | src/brewflasher_cli/brewflasher_cli_edition.py:269-275 | `--erase-all` occurs in the vector exactly when erasing was asked for, given that no port, baud, address or file is that string |
| FlashPlan.FlashWriteRoundTrip | src/brewflasher_cli/brewflasher_cli_edition.py:286 | the file can be read back out of the `-U flash:w:<file>:i` operand |
| FlashPlan.AvrdudeCommand | src/brewflasher_cli/brewflasher_cli_edition.py:280-287 | the avrdude vector is ten words: `avrdude -p atmega328p -c arduino -P`, the port, `-D -U`, and a `flash:w:<file>:i` operand from which the firmware file reads back |
| Builder.AppendIfIsOptionalPair | src/brewflasher_cli/brewflasher_cli_edition.py:243-248 | each conditional append adds exactly the pair of that artifact's optional segment |
| Builder.FamilyExtensionMatchesPlan | src/brewflasher_cli/brewflasher_cli_edition.py:232-252 | the family part is the chip header, the firmware pair and the optional partitions and bootloader pairs |
| Builder.StorageExtensionMatchesPlan | src/brewflasher_cli/brewflasher_cli_edition.py:258-266 | spiffs and then otadata are appended under their three-way gates, after every family-specific pair |
| Builder.ExtensionMatchesPlan | src/brewflasher_cli/brewflasher_cli_edition.py:227-266 | for a known family the whole extension is the plan's header followed by its segment pairs |
| Builder.BuildCommandMatchesPlan | src/brewflasher_cli/brewflasher_cli_edition.py:227-292 | the builder yields the rendered plan for a known esptool family, False for an unknown family, the fixed avrdude command for avrdude, and ValueError for any other method |
| Builder.AvrdudeIgnoresBaudAndErase | src/brewflasher_cli/brewflasher_cli_edition.py:279-287 | the avrdude command is the same whatever the baud and erase choice |
| Builder.RenderOpening | src/brewflasher_cli/brewflasher_cli_edition.py:238-241 | a plan's vector is the port, the header and the firmware pair, then the remaining pairs and the trailing flags |
| Builder.Esp32ClassCommandOpening | src/brewflasher_cli/brewflasher_cli_edition.py:232-241 | an ESP32-class vector opens with the port, chip, baud and reset flags, the chip's write options, and the firmware at 0x10000 |
| Builder.Esp8266Command | src/brewflasher_cli/brewflasher_cli_edition.py:250-252 | the ESP8266 vector has no baud or reset flags and no partitions or bootloader; only spiffs and otadata may follow the firmware at 0x00000 |
| LegacyBuilder.LegacyExtensionMatchesNewer | brewflasher_cli.py:234-287 | the older literal lists and gates build the same family part as the newer table |
| LegacyBuilder.LegacyMatchesPlan | brewflasher_cli.py:234-316 | the older builder yields the rendered plan for each known family and False for any other name, whatever the flash method |
| LegacyBuilder.LegacyAgreesWithNewer | brewflasher_cli.py:234-316 | for an esptool family both editions build the same vector, and an unknown family fails in both |
| LegacyBuilder.LegacyIgnoresFlashMethod | brewflasher_cli.py:234-287 | an ESP-named family marked for avrdude still gets an esptool vector from the older builder |
| Pipeline.TouchAndInvoke | src/brewflasher_cli/brewflasher_cli_edition.py:295-333 | a failed touch raises before the backend: a serial error is re-raised and any other exception escapes; the backend runs once, last; a backend serial error re-raises, any other backend error returns False, and success returns None |
| Pipeline.AfterGates | src/brewflasher_cli/brewflasher_cli_edition.py:216-225 | the web check comes first; the download only after it passes; either failing returns False with nothing invoked |
| Pipeline.Tail | src/brewflasher_cli/brewflasher_cli_edition.py:253-292 | an unknown family returns False (lines 253-255) and an unknown method raises ValueError (lines 291-292), both before any touch or backend call |
| Pipeline.FlashCurrent | src/brewflasher_cli/brewflasher_cli_edition.py:210-333 | effects are attempted in pipeline order; the backend is invoked exactly when family, check, download, build and touch all pass, last, with the built command; each ending's exact condition, including a non-serial exception escaping the touch |
| Pipeline.FlashLegacy | brewflasher_cli.py:215-369 | the same for the older edition: the backend is invoked exactly when the gates pass and the family is known; ValueError never arises |
| Pipeline.FlashLegacyMatchesCurrent | brewflasher_cli.py:215-369 | for an esptool family the firmware points back to, both editions' flash functions attempt the same effects and end the same way, when the web check and the download answer both editions alike |
| Pipeline.GateFailuresStopEarly | src/brewflasher_cli/brewflasher_cli_edition.py:216-224 | a failed web check attempts nothing more; a failed download invokes nothing |
| Pipeline.TouchFailureRaises | src/brewflasher_cli/brewflasher_cli_edition.py:295-307 | a failed touch ends the run with the touch as its last effect and the backend never invoked: a serial error is re-raised, any other exception escapes |
| Pipeline.InvokedAtMostOnce | src/brewflasher_cli/brewflasher_cli_edition.py:309-313 | an ordered run calls the backend at most once |
| Session.PromptSteps | src/brewflasher_cli/brewflasher_cli_edition.py:76-90 | the baud menu and the erase prompt are shown exactly when the choices say they were asked |
| Session.Settle | src/brewflasher_cli/brewflasher_cli_edition.py:105-121 | main goes on only if the firmware is confirmed, a non-empty device is chosen and the device is confirmed; otherwise it exits 0 |
| Session.CurrentPrelude | src/brewflasher_cli/brewflasher_cli_edition.py:35-121 | conflicting erase flags exit 1 with nothing done; a failed catalog load exits 0; an unknown id or a missing avrdude exits 1; main reaches the flash call exactly when every gate passes |
| Session.MainCurrent | src/brewflasher_cli/brewflasher_cli_edition.py:34-126 | the flash runs with the looked-up firmware, settled choices and chosen device; a return of any value is followed by cleanup and exit 0; a raise escapes with no cleanup |
| Session.LegacyPrelude | brewflasher_cli.py:30-103 | a failed load exits 0; an unknown id or a missing `avrdude` exits 1 before any prompt; otherwise the options and confirmations follow |
| Session.MainLegacy | brewflasher_cli.py:30-114 | only esptool families are flashed, with the family record passed in, and exit 0 with no cleanup; avrdude and unknown methods exit 1 |
| Session.AvrdudeSkipsPrompts | src/brewflasher_cli/brewflasher_cli_edition.py:64-72 | for an avrdude family no baud or erase prompt is shown, and the flash function is passed 115200 and erase=True, which the avrdude command does not use |
| Session.ComparableRunsAlike | brewflasher_cli.py:64-105 | without `--dont-erase-flash`, for an esptool family its firmware points back to, both mains settle the same choices and, once ready, run the same flash, when the website answers both editions alike |
| Session.EditionsExitAlike | brewflasher_cli.py:30-114 | for such a selection both mains end with the same exit, when the website answers both editions alike |
| Session.EditionsFlashAlike | brewflasher_cli.py:30-114 | for such a selection one main flashes exactly when the other does; the newer one ends on that flash or on the cleanup after it, when the website answers both editions alike |
| Session.CurrentPromptsOnlyWhenUnset | src/brewflasher_cli/brewflasher_cli_edition.py:76-90 | the baud menu appears only without `--baud`, the erase prompt only without either erase flag, and neither for avrdude |
| Session.LegacyPromptsOnlyWhenUnset | brewflasher_cli.py:64-80 | the baud menu appears only without `--baud` and the erase prompt only without `--erase-flash` |
| Scenarios.Esp32S2WithBootloader | src/brewflasher_cli/brewflasher_cli_edition.py:232-275 | the full vector for an ESP32-S2 with a bootloader, at 460800 baud, erasing |
| Scenarios.Esp32C3PartitionedNoErase | src/brewflasher_cli/brewflasher_cli_edition.py:232-275 | the full vector for an ESP32-C3 with a partition table and a bootloader, not erasing: partitions at 0x8000, bootloader at 0x0, no `--erase-all` |
| Scenarios.AvrdudeTemplate | src/brewflasher_cli/brewflasher_cli_edition.py:279-287 | an avrdude family gets the fixed template for any baud and erase choice |

## Left out

- Catalog loading (`FirmwareList.load_from_website`), `pre_flash_web_verify`, `download_to_file`,
  checksum computation and `full_filepath` live in `brewflasher_com_integration`, which is not
  part of this model. Their results are inputs.
- The interactive menus `select_firmware`, `select_baud_rate` and `detect_new_devices`, and the
  serial-port diffing in `serial_integration`, are stdin- and OS-driven. Only what they return is
  an input.
- `esptool.main`, `subprocess.run`, `serial.Serial`, `shutil.which`, `sleep`, printing and
  `sys.exit` are foreign calls, timing and I/O. Their outcomes are enumerated inputs, and
  `sys.exit(n)` is the exit status n.
- `int(firmware)` on a non-numeric `--firmware` raises ValueError in the source. The model takes
  `--firmware` as an int already.
- Click's validation of `--baud` against the supported rates happens before `main` runs, so a
  `--baud` value reaches the model unchecked.
- A `None` firmware object makes the newer flash function fail with AttributeError, because it
  reads `.family` first. The modelled firmware is always present.
- `Text.LowerChar` maps ASCII letters only. Python's `lower()` also maps other letters, and may
  change the length (`'İ'.lower()` gives two code points). None of those letters map to `y`,
  `e` or `s`, so the yes/no test is unaffected. `Text.Lower` keeps the length only because of
  this.
- Comparing the editions (`Pipeline.FlashLegacyMatchesCurrent`, `Session.ComparableRunsAlike`,
  `Session.EditionsExitAlike`, `Session.EditionsFlashAlike`) uses one set of outside answers for
  both. The real calls differ. The newer web check reports version 0.1.1 and the flasher name;
  the older reports 0.0.1 and no flasher name. The older download passes the device family. A
  website that answered the two editions differently is not covered.
- Every URL, checksum and address field of a catalog record is a string, never None.
  - The older edition tests every one of these fields with `len(...)`, which raises TypeError
    on None.
  - The newer edition tests urls and checksums for truthiness, so it skips an artifact whose
    url or checksum is None.
  - The newer edition still calls `len(...)` on the spiffs and otadata addresses once their url
    and checksum pass (src/brewflasher_cli/brewflasher_cli_edition.py:258, 262-263). So a None
    address raises TypeError in both editions.
  - The two builders agree (`LegacyBuilder.LegacyExtensionMatchesNewer`) only on string-valued
    fields.
- `BaseException`s that are not `Exception`s (SystemExit, KeyboardInterrupt) raised inside
  esptool are not modelled. The backend either returns, raises SerialException, or raises some
  other Exception.
- Printed messages, including the "Esptool command:" echo, are not modelled.
- The "should never happen" branch of the newer erase resolution cannot be reached and is not
  modelled.
- `main.py` is an interactive menu demo and `src/brewflasher_cli/brewflasher.py` is an import
  shim. Neither is part of this model.

=== FILE: builder.dfy ===
/** The newer edition's command builder: the part of `flash_firmware_using_whatever_is_appropriate`
    that turns a family, a firmware, the baud, the port and the erase choice into the argument
    vector for esptool or avrdude. */
module Builder {
  import opened Catalog
  import opened Options
  import opened FlashPlan

  /** The argument vector and the backend it is meant for. */
  datatype Command = EsptoolArgs(args: seq<string>) | AvrdudeArgs(args: seq<string>)

  /** A built command, or the two ways building stops: an esptool family the builder does
      not know (the function returns False) and a flash method it does not know (it raises
      ValueError). */
  datatype BuildOutcome = Built(command: Command) | InvalidFamily | InvalidFlashMethod

  predicate IsEsp32ClassName(name: string)
  {
    name == "ESP32" || name == "ESP32-S2" || name == "ESP32-C3"
  }

  /** The newer edition's per-family table: the chip id followed by the `write_flash` options
      up to the primary address. */
  function FlashOptionsTable(name: string): seq<string>
    requires IsEsp32ClassName(name)
  {
    if name == "ESP32" then ["esp32", "0x10000"]
    else if name == "ESP32-S2" then ["esp32s2", "-z", "--flash_mode", "dio", "--flash_freq", "80m", "0x10000"]
    else ["esp32c3", "-z", "--flash_mode", "dio", "--flash_freq", "80m", "0x10000"]
  }

  /** Appends an (address, file) pair when the condition holds. */
  function AppendIf(ext: seq<string>, condition: bool, address: string, file: string): seq<string>
  {
    if condition then ext + [address, file] else ext
  }

  /** The family-specific part of the esptool vector: chip flags, the firmware, and the
      partitions and bootloader of the ESP32 class. None for a family name it does not know. */
  function FamilyExtension(family: DeviceFamily, fw: Firmware, baud: Baud, paths: ArtifactPaths): Option<seq<string>>
  {
    var name := family.name;
    if IsEsp32ClassName(name) then
      var options := FlashOptionsTable(name);
      var ext := ["--chip", options[0], "--baud", BaudArgument(baud),
                  "--before", "default_reset", "--after", "hard_reset", "write_flash"]
                 + options[1..] + [paths.firmware];
      var ext := AppendIf(ext, |fw.downloadUrlPartitions| > 0 && |fw.checksumPartitions| > 0, "0x8000", paths.partitions);
      var bootAddress := if name == "ESP32-C3" then "0x0" else "0x1000";
      var ext := AppendIf(ext, |family.downloadUrlBootloader| > 0 && |family.checksumBootloader| > 0, bootAddress, paths.bootloader);
      Some(ext)
    else if name == "ESP8266" then
      Some(["--chip", "esp8266", "write_flash", "0x00000", paths.firmware])
    else
      None
  }

  /** The spiffs and otadata pairs, appended for both the ESP32 class and the ESP8266. */
  function StorageExtension(ext: seq<string>, family: DeviceFamily, fw: Firmware, paths: ArtifactPaths): seq<string>
  {
    var ext := AppendIf(ext, |fw.downloadUrlSpiffs| > 0 && |fw.checksumSpiffs| > 0 && |fw.spiffsAddress| > 2,
                        fw.spiffsAddress, paths.spiffs);
    AppendIf(ext, |family.downloadUrlOtadata| > 0 && |family.checksumOtadata| > 0 && |family.otadataAddress| > 2,
             family.otadataAddress, paths.otadata)
  }

  /** The command for a firmware whose family record is `family`. */
  function BuildCommand(family: DeviceFamily, fw: Firmware, baud: Baud, port: string, erase: bool, paths: ArtifactPaths)
    : BuildOutcome
  {
    if family.flashMethod == "esptool" then
      match FamilyExtension(family, fw, baud, paths)
      case None => InvalidFamily
      case Some(ext) =>
        var command := ["--port", port] + StorageExtension(ext, family, fw, paths);
        var command := if erase then command + ["--erase-all"] else command;
        Built(EsptoolArgs(command + ["-fs", "detect"]))
    else if family.flashMethod == "avrdude" then
      Built(AvrdudeArgs(["avrdude", "-p", "atmega328p", "-c", "arduino", "-P", port, "-D",
                         "-U", "flash:w:" + paths.firmware + ":i"]))
    else
      InvalidFlashMethod
  }

  /** What the builder is meant to produce: the rendered flash plan for a known esptool
      family, the fixed avrdude template, or the matching error. */
  function IntendedOutcome(family: DeviceFamily, fw: Firmware, baud: Baud, port: string, erase: bool, paths: ArtifactPaths)
    : BuildOutcome
  {
    if family.flashMethod == "esptool" then
      match ChipOfFamily(family.name)
      case None => InvalidFamily
      case Some(c) => Built(EsptoolArgs(Render(PlanFor(c, family, fw, BaudArgument(baud), port, erase, paths))))
    else if family.flashMethod == "avrdude" then
      Built(AvrdudeArgs(AvrdudeCommand(port, paths.firmware)))
    else
      InvalidFlashMethod
  }

  /** A conditional append is the pairs of the artifact's optional segment. */
  lemma AppendIfIsOptionalPair(
    ext: seq<string>, condition: bool, address: string, file: string,
    a: Artifact, c: Chip, family: DeviceFamily, fw: Firmware, paths: ArtifactPaths)
    requires condition == Included(a, c, family, fw)
    requires address == AddressOf(a, c, family, fw) && file == PathOf(paths, a)
    ensures AppendIf(ext, condition, address, file) == ext + Pairs(OptionalSegment(a, c, family, fw, paths))
  {
    if condition {
      assert Pairs(OptionalSegment(a, c, family, fw, paths)) == [address, file];
    } else {
      assert ext + [] == ext;
    }
  }

  /** The family extension is the chip header, the firmware pair and the optional
      partitions and bootloader pairs. */
  lemma FamilyExtensionMatchesPlan(c: Chip, family: DeviceFamily, fw: Firmware, baud: Baud, paths: ArtifactPaths)
    requires ChipOfFamily(family.name) == Some(c)
    ensures FamilyExtension(family, fw, baud, paths) == Some(
      Header(c, BaudArgument(baud))
      + Pairs([SegmentOf(FirmwareImage, c, family, fw, paths)])
      + Pairs(OptionalSegment(Partitions, c, family, fw, paths))
      + Pairs(OptionalSegment(Bootloader, c, family, fw, paths)))
  {
    var b := BaudArgument(baud);
    var first := Pairs([SegmentOf(FirmwareImage, c, family, fw, paths)]);
    assert first == [PrimaryAddress(c), paths.firmware];
    if IsEsp32Class(c) {
      var options := FlashOptionsTable(family.name);
      var ext0 := ["--chip", options[0], "--baud", b,
                   "--before", "default_reset", "--after", "hard_reset", "write_flash"]
                  + options[1..] + [paths.firmware];
      assert options[1..] == FlashTuning(c) + [PrimaryAddress(c)];
      assert ext0 == Header(c, b) + first;
      var bootAddress := if family.name == "ESP32-C3" then "0x0" else "0x1000";
      var cond0 := |fw.downloadUrlPartitions| > 0 && |fw.checksumPartitions| > 0;
      AppendIfIsOptionalPair(ext0, cond0, "0x8000", paths.partitions, Partitions, c, family, fw, paths);
      var ext1 := AppendIf(ext0, cond0, "0x8000", paths.partitions);
      var cond1 := |family.downloadUrlBootloader| > 0 && |family.checksumBootloader| > 0;
      AppendIfIsOptionalPair(ext1, cond1, bootAddress, paths.bootloader, Bootloader, c, family, fw, paths);
    } else {
      assert Pairs(OptionalSegment(Partitions, c, family, fw, paths)) == [];
      assert Pairs(OptionalSegment(Bootloader, c, family, fw, paths)) == [];
      assert Header(c, b) + first + [] + [] == ["--chip", "esp8266", "write_flash", "0x00000", paths.firmware];
    }
  }

  /** The storage extension appends the optional spiffs and otadata pairs. */
  lemma StorageExtensionMatchesPlan(ext: seq<string>, c: Chip, family: DeviceFamily, fw: Firmware, paths: ArtifactPaths)
    ensures StorageExtension(ext, family, fw, paths)
         == ext + Pairs(OptionalSegment(Spiffs, c, family, fw, paths)) + Pairs(OptionalSegment(Otadata, c, family, fw, paths))
  {
    var cond0 := |fw.downloadUrlSpiffs| > 0 && |fw.checksumSpiffs| > 0 && |fw.spiffsAddress| > 2;
    AppendIfIsOptionalPair(ext, cond0, fw.spiffsAddress, paths.spiffs, Spiffs, c, family, fw, paths);
    var ext1 := AppendIf(ext, cond0, fw.spiffsAddress, paths.spiffs);
    var cond1 := |family.downloadUrlOtadata| > 0 && |family.checksumOtadata| > 0 && |family.otadataAddress| > 2;
    AppendIfIsOptionalPair(ext1, cond1, family.otadataAddress, paths.otadata, Otadata, c, family, fw, paths);
  }

  /** The pairs of the plan's segments, artifact by artifact. */
  lemma PlanPairsSpelledOut(c: Chip, family: DeviceFamily, fw: Firmware, paths: ArtifactPaths)
    ensures Pairs(SelectSegments(ArtifactOrder, c, family, fw, paths))
         == Pairs([SegmentOf(FirmwareImage, c, family, fw, paths)])
          + Pairs(OptionalSegment(Partitions, c, family, fw, paths))
          + Pairs(OptionalSegment(Bootloader, c, family, fw, paths))
          + Pairs(OptionalSegment(Spiffs, c, family, fw, paths))
          + Pairs(OptionalSegment(Otadata, c, family, fw, paths))
  {
    var first := [SegmentOf(FirmwareImage, c, family, fw, paths)];
    var part := OptionalSegment(Partitions, c, family, fw, paths);
    var boot := OptionalSegment(Bootloader, c, family, fw, paths);
    var spiffs := OptionalSegment(Spiffs, c, family, fw, paths);
    var ota := OptionalSegment(Otadata, c, family, fw, paths);
    PlanSegmentsSpelledOut(c, family, fw, paths);
    PairsAppend(first + part + boot + spiffs, ota);
    PairsAppend(first + part + boot, spiffs);
    PairsAppend(first + part, boot);
    PairsAppend(first, part);
  }

  /** Regrouping a concatenation. Stated over plain sequences so that the solver does not
      unfold the builder's terms while regrouping them; the two regroup lemmas exist only
      for that reason. */
  lemma RegroupTail(h: seq<string>, p0: seq<string>, p1: seq<string>, p2: seq<string>, p3: seq<string>, p4: seq<string>)
    ensures h + p0 + p1 + p2 + p3 + p4 == h + (p0 + p1 + p2 + p3 + p4)
  {
  }

  lemma RegroupRender(a: seq<string>, b: seq<string>, c: seq<string>, d: seq<string>, e: seq<string>)
    ensures a + (b + c) + d + e == a + b + c + d + e
  {
  }

  /** The family and storage extensions together are the plan's header and segment pairs. */
  lemma ExtensionMatchesPlan(c: Chip, family: DeviceFamily, fw: Firmware, baud: Baud, paths: ArtifactPaths)
    requires ChipOfFamily(family.name) == Some(c)
    ensures FamilyExtension(family, fw, baud, paths).Some?
    ensures StorageExtension(FamilyExtension(family, fw, baud, paths).value, family, fw, paths)
         == Header(c, BaudArgument(baud)) + Pairs(SelectSegments(ArtifactOrder, c, family, fw, paths))
  {
    var h := Header(c, BaudArgument(baud));
    var p0 := Pairs([SegmentOf(FirmwareImage, c, family, fw, paths)]);
    var p1 := Pairs(OptionalSegment(Partitions, c, family, fw, paths));
    var p2 := Pairs(OptionalSegment(Bootloader, c, family, fw, paths));
    var p3 := Pairs(OptionalSegment(Spiffs, c, family, fw, paths));
    var p4 := Pairs(OptionalSegment(Otadata, c, family, fw, paths));
    assert FamilyExtension(family, fw, baud, paths) == Some(h + p0 + p1 + p2) by {
      FamilyExtensionMatchesPlan(c, family, fw, baud, paths);
    }
    var ext := h + p0 + p1 + p2;
    assert StorageExtension(ext, family, fw, paths) == ext + p3 + p4 by {
      StorageExtensionMatchesPlan(ext, c, family, fw, paths);
    }
    assert Pairs(SelectSegments(ArtifactOrder, c, family, fw, paths)) == p0 + p1 + p2 + p3 + p4 by {
      PlanPairsSpelledOut(c, family, fw, paths);
    }
    RegroupTail(h, p0, p1, p2, p3, p4);
  }

  /** The newer builder produces exactly the intended outcome: for a known esptool family the
      rendered plan (so segment presence, order and addresses are those `PlanFor` promises);
      for avrdude the fixed template; otherwise the matching error. */
  lemma BuildCommandMatchesPlan(family: DeviceFamily, fw: Firmware, baud: Baud, port: string, erase: bool, paths: ArtifactPaths)
    ensures BuildCommand(family, fw, baud, port, erase, paths) == IntendedOutcome(family, fw, baud, port, erase, paths)
  {
    if family.flashMethod == "esptool" && ChipOfFamily(family.name).Some? {
      var c := ChipOfFamily(family.name).value;
      var b := BaudArgument(baud);
      ExtensionMatchesPlan(c, family, fw, baud, paths);
      var ext := FamilyExtension(family, fw, baud, paths).value;
      var p := PlanFor(c, family, fw, b, port, erase, paths);
      var mid := StorageExtension(ext, family, fw, paths);
      assert mid == Header(c, b) + Pairs(p.segments);
      var command := ["--port", port] + mid;
      var command' := if erase then command + ["--erase-all"] else command;
      assert command' == command + EraseFlag(erase);
      RegroupRender(["--port", port], Header(c, b), Pairs(p.segments), EraseFlag(erase), ["-fs", "detect"]);
    }
  }

  /** The avrdude command depends on neither the baud nor the erase choice. */
  lemma AvrdudeIgnoresBaudAndErase(
    family: DeviceFamily, fw: Firmware, baud: Baud, baud': Baud, port: string, erase: bool, erase': bool, paths: ArtifactPaths)
    requires family.flashMethod == "avrdude"
    ensures BuildCommand(family, fw, baud, port, erase, paths) == BuildCommand(family, fw, baud', port, erase', paths)
    ensures BuildCommand(family, fw, baud, port, erase, paths) == Built(AvrdudeArgs(AvrdudeCommand(port, paths.firmware)))
  {
  }

  /** The fixed opening of an ESP32-class vector. */
  function Esp32Opening(c: Chip, baud: string, port: string, firmwareFile: string): seq<string>
  {
    ["--port", port, "--chip", ChipId(c), "--baud", baud, "--before", "default_reset", "--after", "hard_reset", "write_flash"]
    + FlashTuning(c) + ["0x10000", firmwareFile]
  }

  /** A plan's vector is the port, the header and the leading firmware pair, then the rest. */
  lemma RenderOpening(p: Plan)
    requires |p.segments| > 0
    ensures Render(p) == (["--port", p.port] + Header(p.chip, p.baud) + [p.segments[0].address, p.segments[0].file])
                       + (Pairs(p.segments[1..]) + EraseFlag(p.eraseAll) + ["-fs", "detect"])
  {
    var segs := p.segments;
    assert segs == [segs[0]] + segs[1..];
    PairsAppend([segs[0]], segs[1..]);
    assert Pairs([segs[0]]) == [segs[0].address, segs[0].file];
    var port, header, first, rest := ["--port", p.port], Header(p.chip, p.baud), Pairs([segs[0]]), Pairs(segs[1..]);
    assert port + header + (first + rest) + EraseFlag(p.eraseAll) + ["-fs", "detect"]
        == (port + header + first) + (rest + EraseFlag(p.eraseAll) + ["-fs", "detect"]);
  }

  lemma Esp32OpeningSpelledOut(c: Chip, b: string, port: string, file: string)
    requires IsEsp32Class(c)
    ensures ["--port", port] + Header(c, b) + [PrimaryAddress(c), file] == Esp32Opening(c, b, port, file)
  {
    var flags := ["--chip", ChipId(c), "--baud", b, "--before", "default_reset", "--after", "hard_reset", "write_flash"];
    assert ["--port", port] + (flags + FlashTuning(c)) == ["--port", port] + flags + FlashTuning(c);
  }

  /** For the ESP32 class the vector opens with the port, chip, baud and reset flags, the
      chip's write options, and the firmware at 0x10000. */
  lemma Esp32ClassCommandOpening(
    family: DeviceFamily, fw: Firmware, baud: Baud, port: string, erase: bool, paths: ArtifactPaths)
    requires family.flashMethod == "esptool" && IsEsp32ClassName(family.name)
    ensures BuildCommand(family, fw, baud, port, erase, paths).Built?
    ensures var args := BuildCommand(family, fw, baud, port, erase, paths).command.args;
      var opening := Esp32Opening(ChipOfFamily(family.name).value, BaudArgument(baud), port, paths.firmware);
      |opening| <= |args| && args[..|opening|] == opening
  {
    var c := ChipOfFamily(family.name).value;
    var b := BaudArgument(baud);
    var p := PlanFor(c, family, fw, b, port, erase, paths);
    assert BuildCommand(family, fw, baud, port, erase, paths) == Built(EsptoolArgs(Render(p))) by {
      BuildCommandMatchesPlan(family, fw, baud, port, erase, paths);
    }
    RenderOpening(p);
    var opening := ["--port", port] + Header(c, b) + [p.segments[0].address, p.segments[0].file];
    assert opening == Esp32Opening(c, b, port, paths.firmware) by {
      Esp32OpeningSpelledOut(c, b, port, paths.firmware);
    }
    var rest := Pairs(p.segments[1..]) + EraseFlag(erase) + ["-fs", "detect"];
    assert (opening + rest)[..|opening|] == opening;
  }

  /** The ESP8266 vector is the port, `--chip esp8266 write_flash`, the firmware at 0x00000,
      then only the spiffs and otadata pairs: no baud, no reset flags, no partitions or
      bootloader. */
  lemma Esp8266Command(family: DeviceFamily, fw: Firmware, baud: Baud, port: string, erase: bool, paths: ArtifactPaths)
    requires family.flashMethod == "esptool" && family.name == "ESP8266"
    ensures BuildCommand(family, fw, baud, port, erase, paths) ==
      Built(EsptoolArgs(["--port", port, "--chip", "esp8266", "write_flash", "0x00000", paths.firmware]
        + (Pairs(OptionalSegment(Spiffs, Esp8266, family, fw, paths) + OptionalSegment(Otadata, Esp8266, family, fw, paths))
        + EraseFlag(erase) + ["-fs", "detect"])))
  {
    var p := PlanFor(Esp8266, family, fw, BaudArgument(baud), port, erase, paths);
    assert BuildCommand(family, fw, baud, port, erase, paths) == Built(EsptoolArgs(Render(p))) by {
      BuildCommandMatchesPlan(family, fw, baud, port, erase, paths);
    }
    RenderOpening(p);
    PlanSegmentsSpelledOut(Esp8266, family, fw, paths);
    var first := SegmentOf(FirmwareImage, Esp8266, family, fw, paths);
    var rest := OptionalSegment(Spiffs, Esp8266, family, fw, paths) + OptionalSegment(Otadata, Esp8266, family, fw, paths);
    assert p.segments == [first] + rest;
    assert p.segments[1..] == rest;
    assert first == Segment(FirmwareImage, "0x00000", paths.firmware);
    assert Header(Esp8266, BaudArgument(baud)) == ["--chip", "esp8266", "write_flash"];
    assert ["--port", port] + ["--chip", "esp8266", "write_flash"] + ["0x00000", paths.firmware]
        == ["--port", port, "--chip", "esp8266", "write_flash", "0x00000", paths.firmware];
  }
}

=== FILE: catalog.dfy ===
/** The firmware catalog as the flasher consumes it: Project -> DeviceFamily -> Firmware,
    and the lookup of a firmware by its numeric id that `main` performs when `--firmware`
    is given. Catalog loading itself is not part of this model; a loaded catalog is an input. */
module Catalog {

  datatype Option<+T> = None | Some(value: T)

  /** A device family record. Strings are the catalog's raw field values; an absent
      artifact is an empty string. */
  datatype DeviceFamily = DeviceFamily(
    id: int,
    name: string,
    flashMethod: string,
    downloadUrlBootloader: string,
    checksumBootloader: string,
    downloadUrlOtadata: string,
    checksumOtadata: string,
    otadataAddress: string,
    use1200BpsTouch: bool)

  /** A firmware record. `family` is the back-reference the newer flash function reads;
      it is a copy of the family record, not an ownership edge. */
  datatype Firmware = Firmware(
    id: int,
    family: Option<DeviceFamily>,
    downloadUrlPartitions: string,
    checksumPartitions: string,
    downloadUrlSpiffs: string,
    checksumSpiffs: string,
    spiffsAddress: string)

  /** A family as it sits in a project, with the firmware listed under it. */
  datatype FamilyNode = FamilyNode(id: int, family: DeviceFamily, firmware: seq<Firmware>)

  datatype Project = Project(id: int, families: seq<FamilyNode>)

  /** What `main` ends up holding after a selection: the firmware and the family node's record. */
  datatype Selection = Selection(firmware: Firmware, family: DeviceFamily)

  /** The selections under one family, in listing order. */
  function FamilyEntries(family: DeviceFamily, fws: seq<Firmware>): (es: seq<Selection>)
    ensures |es| == |fws|
    ensures forall k :: 0 <= k < |fws| ==> es[k] == Selection(fws[k], family)
    decreases |fws|
  {
    if |fws| == 0 then [] else FamilyEntries(family, fws[..|fws| - 1]) + [Selection(fws[|fws| - 1], family)]
  }

  /** The selections under a project's families, in iteration order. */
  function NodesEntries(nodes: seq<FamilyNode>): seq<Selection>
    decreases |nodes|
  {
    if |nodes| == 0 then []
    else NodesEntries(nodes[..|nodes| - 1]) + FamilyEntries(nodes[|nodes| - 1].family, nodes[|nodes| - 1].firmware)
  }

  /** Every (firmware, family) pair of the catalog, in the order the nested scan visits them. */
  function Entries(projects: seq<Project>): seq<Selection>
    decreases |projects|
  {
    if |projects| == 0 then []
    else Entries(projects[..|projects| - 1]) + NodesEntries(projects[|projects| - 1].families)
  }

  /** The last entry whose firmware id equals `id`, if any. */
  function LastMatch(es: seq<Selection>, id: int): Option<Selection>
    decreases |es|
  {
    if |es| == 0 then None
    else if es[|es| - 1].firmware.id == id then Some(es[|es| - 1])
    else LastMatch(es[..|es| - 1], id)
  }

  /** LastMatch really is the last match: absent iff nothing matches, and otherwise a
      matching entry after which nothing matches. */
  lemma {:induction false} LastMatchIsLast(es: seq<Selection>, id: int)
    ensures LastMatch(es, id).None? <==> forall i :: 0 <= i < |es| ==> es[i].firmware.id != id
    ensures LastMatch(es, id).Some? ==>
      exists i :: 0 <= i < |es| && es[i] == LastMatch(es, id).value && es[i].firmware.id == id &&
        forall j :: i < j < |es| ==> es[j].firmware.id != id
    decreases |es|
  {
    if |es| > 0 && es[|es| - 1].firmware.id != id {
      var front := es[..|es| - 1];
      LastMatchIsLast(front, id);
      assert forall i :: 0 <= i < |front| ==> front[i] == es[i];
      if LastMatch(front, id).Some? {
        var i :| 0 <= i < |front| && front[i] == LastMatch(front, id).value && front[i].firmware.id == id &&
          forall j :: i < j < |front| ==> front[j].firmware.id != id;
        assert es[i] == LastMatch(es, id).value;
        assert forall j :: i < j < |es| ==> es[j].firmware.id != id;
      }
    }
  }

  /** The value the scan holds after a later stretch of entries: a match there replaces
      whatever was found before. */
  function Override(earlier: Option<Selection>, later: Option<Selection>): Option<Selection>
  {
    if later.Some? then later else earlier
  }

  /** A match in a later part of the scan overrides any match in an earlier part. */
  lemma {:induction false} LastMatchAppend(a: seq<Selection>, b: seq<Selection>, id: int)
    ensures LastMatch(a + b, id) == Override(LastMatch(a, id), LastMatch(b, id))
    decreases |b|
  {
    if |b| == 0 {
      assert a + b == a;
    } else {
      var b' := b[..|b| - 1];
      assert (a + b)[..|a + b| - 1] == a + b';
      LastMatchAppend(a, b', id);
    }
  }

  /** Every firmware under every family of every project is one of the scanned entries. */
  lemma {:induction false} EntriesCoverCatalog(projects: seq<Project>, p: int, n: int, k: int)
    requires 0 <= p < |projects|
    requires 0 <= n < |projects[p].families|
    requires 0 <= k < |projects[p].families[n].firmware|
    ensures Selection(projects[p].families[n].firmware[k], projects[p].families[n].family) in Entries(projects)
    decreases |projects|
  {
    if p < |projects| - 1 {
      assert projects[..|projects| - 1][p] == projects[p];
      EntriesCoverCatalog(projects[..|projects| - 1], p, n, k);
    } else {
      NodesCoverFamilies(projects[p].families, n, k);
    }
  }

  lemma {:induction false} NodesCoverFamilies(nodes: seq<FamilyNode>, n: int, k: int)
    requires 0 <= n < |nodes|
    requires 0 <= k < |nodes[n].firmware|
    ensures Selection(nodes[n].firmware[k], nodes[n].family) in NodesEntries(nodes)
    decreases |nodes|
  {
    if n < |nodes| - 1 {
      assert nodes[..|nodes| - 1][n] == nodes[n];
      NodesCoverFamilies(nodes[..|nodes| - 1], n, k);
    } else {
      var es := FamilyEntries(nodes[n].family, nodes[n].firmware);
      assert es[k] == Selection(nodes[n].firmware[k], nodes[n].family);
    }
  }

  /** The innermost loop of the scan: one family's firmware list. */
  method ScanFirmware(family: DeviceFamily, fws: seq<Firmware>, id: int, found: Option<Selection>)
    returns (r: Option<Selection>)
    ensures r == Override(found, LastMatch(FamilyEntries(family, fws), id))
  {
    r := found;
    for k := 0 to |fws|
      invariant r == Override(found, LastMatch(FamilyEntries(family, fws[..k]), id))
    {
      assert fws[..k + 1][..k] == fws[..k];
      ghost var es := FamilyEntries(family, fws[..k + 1]);
      assert es[..|es| - 1] == FamilyEntries(family, fws[..k]);
      if fws[k].id == id {
        r := Some(Selection(fws[k], family));
      }
    }
    assert fws[..|fws|] == fws;
  }

  /** The middle loop of the scan: one project's families. */
  method ScanFamilies(nodes: seq<FamilyNode>, id: int, found: Option<Selection>) returns (r: Option<Selection>)
    ensures r == Override(found, LastMatch(NodesEntries(nodes), id))
  {
    r := found;
    for j := 0 to |nodes|
      invariant r == Override(found, LastMatch(NodesEntries(nodes[..j]), id))
    {
      assert nodes[..j + 1][..j] == nodes[..j];
      LastMatchAppend(NodesEntries(nodes[..j]), FamilyEntries(nodes[j].family, nodes[j].firmware), id);
      r := ScanFirmware(nodes[j].family, nodes[j].firmware, id, r);
    }
    assert nodes[..|nodes|] == nodes;
  }

  /** The nested scan of `main`: every project, every family, every firmware, no early
      exit, so a later match overwrites an earlier one. */
  method FindFirmware(projects: seq<Project>, id: int) returns (r: Option<Selection>)
    ensures r == LastMatch(Entries(projects), id)
    ensures r.Some? ==> r.value in Entries(projects) && r.value.firmware.id == id
  {
    r := None;
    for i := 0 to |projects|
      invariant r == LastMatch(Entries(projects[..i]), id)
    {
      assert projects[..i + 1][..i] == projects[..i];
      LastMatchAppend(Entries(projects[..i]), NodesEntries(projects[i].families), id);
      r := ScanFamilies(projects[i].families, id, r);
    }
    assert projects[..|projects|] == projects;
    LastMatchIsLast(Entries(projects), id);
  }
}

=== FILE: flash_plan.dfy ===
/** The flash plan: which (address, file) segments a family and firmware call for, in
    which order, and how a plan is spelled as an esptool argument vector. This is the
    declarative statement of the rules both editions' builders follow; the builders are
    proved to produce exactly `Render(PlanFor(...))`. */
module FlashPlan {
  import opened Catalog

  /** The esptool chips the builders know, keyed by the family's display name. */
  datatype Chip = Esp32 | Esp32S2 | Esp32C3 | Esp8266

  function ChipOfFamily(name: string): (c: Option<Chip>)
    ensures c == Some(Esp32) <==> name == "ESP32"
    ensures c == Some(Esp32S2) <==> name == "ESP32-S2"
    ensures c == Some(Esp32C3) <==> name == "ESP32-C3"
    ensures c == Some(Esp8266) <==> name == "ESP8266"
  {
    if name == "ESP32" then Some(Esp32)
    else if name == "ESP32-S2" then Some(Esp32S2)
    else if name == "ESP32-C3" then Some(Esp32C3)
    else if name == "ESP8266" then Some(Esp8266)
    else None
  }

  /** The ESP32 class (ESP32, -S2, -C3) takes baud and reset flags, a partition table and a
      bootloader; the ESP8266 takes none of them. */
  predicate IsEsp32Class(c: Chip)
  {
    c != Esp8266
  }

  /** The value of esptool's `--chip`. */
  function ChipId(c: Chip): string
  {
    match c
    case Esp32 => "esp32"
    case Esp32S2 => "esp32s2"
    case Esp32C3 => "esp32c3"
    case Esp8266 => "esp8266"
  }

  /** The `write_flash` options fixed per chip: compression with DIO mode at 80 MHz for the
      S2 and C3, none for the others. */
  function FlashTuning(c: Chip): seq<string>
  {
    if c == Esp32S2 || c == Esp32C3 then ["-z", "--flash_mode", "dio", "--flash_freq", "80m"] else []
  }

  function PrimaryAddress(c: Chip): string
  {
    if c == Esp8266 then "0x00000" else "0x10000"
  }

  /** The C3 boots from 0x0; the other ESP32-class chips from 0x1000. */
  function BootloaderAddress(c: Chip): string
  {
    if c == Esp32C3 then "0x0" else "0x1000"
  }

  const PartitionsAddress: string := "0x8000"

  /** The downloadable artifacts, in the fixed order their segments take. */
  datatype Artifact = FirmwareImage | Partitions | Bootloader | Spiffs | Otadata

  const ArtifactOrder: seq<Artifact> := [FirmwareImage, Partitions, Bootloader, Spiffs, Otadata]

  function Rank(a: Artifact): nat
  {
    match a
    case FirmwareImage => 0
    case Partitions => 1
    case Bootloader => 2
    case Spiffs => 3
    case Otadata => 4
  }

  /** Where `full_filepath(kind)` put each downloaded artifact. The download cache is not
      part of this model, so these are inputs. */
  datatype ArtifactPaths = ArtifactPaths(firmware: string, partitions: string, bootloader: string, spiffs: string, otadata: string)

  function PathOf(paths: ArtifactPaths, a: Artifact): string
  {
    match a
    case FirmwareImage => paths.firmware
    case Partitions => paths.partitions
    case Bootloader => paths.bootloader
    case Spiffs => paths.spiffs
    case Otadata => paths.otadata
  }

  /** The checksum gate: an artifact is there when both its URL and its checksum are
      non-empty strings. */
  predicate Available(url: string, checksum: string)
  {
    |url| > 0 && |checksum| > 0
  }

  /** A record-supplied address is used only when it is longer than the bare `0x`. */
  predicate AddressUsable(address: string)
  {
    |address| > 2
  }

  /** Whether the artifact contributes a segment for this chip, family and firmware. */
  predicate Included(a: Artifact, c: Chip, family: DeviceFamily, fw: Firmware)
  {
    match a
    case FirmwareImage => true
    case Partitions => IsEsp32Class(c) && Available(fw.downloadUrlPartitions, fw.checksumPartitions)
    case Bootloader => IsEsp32Class(c) && Available(family.downloadUrlBootloader, family.checksumBootloader)
    case Spiffs => Available(fw.downloadUrlSpiffs, fw.checksumSpiffs) && AddressUsable(fw.spiffsAddress)
    case Otadata => Available(family.downloadUrlOtadata, family.checksumOtadata) && AddressUsable(family.otadataAddress)
  }

  /** The flash address of each artifact: fixed per chip for the image, partitions and
      bootloader; taken from the firmware record for spiffs and the family record for otadata. */
  function AddressOf(a: Artifact, c: Chip, family: DeviceFamily, fw: Firmware): string
  {
    match a
    case FirmwareImage => PrimaryAddress(c)
    case Partitions => PartitionsAddress
    case Bootloader => BootloaderAddress(c)
    case Spiffs => fw.spiffsAddress
    case Otadata => family.otadataAddress
  }

  datatype Segment = Segment(artifact: Artifact, address: string, file: string)

  /** The segment an artifact would contribute. */
  function SegmentOf(a: Artifact, c: Chip, family: DeviceFamily, fw: Firmware, paths: ArtifactPaths): Segment
  {
    Segment(a, AddressOf(a, c, family, fw), PathOf(paths, a))
  }

  predicate HasSegment(segs: seq<Segment>, a: Artifact)
  {
    exists i :: 0 <= i < |segs| && segs[i].artifact == a
  }

  predicate StrictlyRanked(order: seq<Artifact>)
  {
    forall i, j :: 0 <= i < j < |order| ==> Rank(order[i]) < Rank(order[j])
  }

  predicate SegmentsRanked(segs: seq<Segment>)
  {
    forall i, j :: 0 <= i < j < |segs| ==> Rank(segs[i].artifact) < Rank(segs[j].artifact)
  }

  /** Each segment is one an included artifact contributes. */
  predicate SegmentsFaithful(segs: seq<Segment>, c: Chip, family: DeviceFamily, fw: Firmware, paths: ArtifactPaths)
  {
    forall i :: 0 <= i < |segs| ==>
      Included(segs[i].artifact, c, family, fw) && segs[i] == SegmentOf(segs[i].artifact, c, family, fw, paths)
  }

  /** No segment ranks below `r`. */
  predicate RankedFrom(segs: seq<Segment>, r: nat)
  {
    forall i :: 0 <= i < |segs| ==> r <= Rank(segs[i].artifact)
  }

  /** The segments of the included artifacts, in the given order. */
  function SelectSegments(order: seq<Artifact>, c: Chip, family: DeviceFamily, fw: Firmware, paths: ArtifactPaths)
    : (segs: seq<Segment>)
    ensures |segs| <= |order|
    decreases |order|
  {
    if |order| == 0 then []
    else if Included(order[0], c, family, fw) then [SegmentOf(order[0], c, family, fw, paths)] + SelectSegments(order[1..], c, family, fw, paths)
    else SelectSegments(order[1..], c, family, fw, paths)
  }

  /** Only included artifacts are selected, each with its own segment. */
  lemma {:induction false} SelectedAreIncluded(order: seq<Artifact>, c: Chip, family: DeviceFamily, fw: Firmware, paths: ArtifactPaths)
    ensures SegmentsFaithful(SelectSegments(order, c, family, fw, paths), c, family, fw, paths)
    decreases |order|
  {
    if |order| > 0 {
      SelectedAreIncluded(order[1..], c, family, fw, paths);
      var rest := SelectSegments(order[1..], c, family, fw, paths);
      if Included(order[0], c, family, fw) {
        var segs := [SegmentOf(order[0], c, family, fw, paths)] + rest;
        assert SelectSegments(order, c, family, fw, paths) == segs;
        assert forall i :: 1 <= i < |segs| ==> segs[i] == rest[i - 1];
        assert segs[0] == SegmentOf(order[0], c, family, fw, paths);
        forall i | 0 <= i < |segs|
          ensures Included(segs[i].artifact, c, family, fw)
          ensures segs[i] == SegmentOf(segs[i].artifact, c, family, fw, paths)
        {
          if i > 0 {
            assert segs[i] == rest[i - 1];
          }
        }
      }
    }
  }

  /** Every included artifact of the order is selected. */
  lemma {:induction false} IncludedAreSelected(order: seq<Artifact>, c: Chip, family: DeviceFamily, fw: Firmware, paths: ArtifactPaths, a: Artifact)
    requires a in order && Included(a, c, family, fw)
    ensures HasSegment(SelectSegments(order, c, family, fw, paths), a)
    decreases |order|
  {
    var segs := SelectSegments(order, c, family, fw, paths);
    if order[0] == a {
      assert segs[0].artifact == a;
    } else {
      assert a in order[1..] by {
        var k :| 0 <= k < |order| && order[k] == a;
        assert order[1..][k - 1] == a;
      }
      IncludedAreSelected(order[1..], c, family, fw, paths, a);
      var rest := SelectSegments(order[1..], c, family, fw, paths);
      var i :| 0 <= i < |rest| && rest[i].artifact == a;
      if Included(order[0], c, family, fw) {
        assert segs[i + 1] == rest[i];
      }
    }
  }

  /** Selecting keeps the order: a strictly ranked order gives strictly ranked segments,
      none ranked below the order's first artifact. */
  lemma {:induction false} SelectionKeepsOrder(order: seq<Artifact>, c: Chip, family: DeviceFamily, fw: Firmware, paths: ArtifactPaths)
    requires StrictlyRanked(order)
    ensures SegmentsRanked(SelectSegments(order, c, family, fw, paths))
    ensures |order| > 0 ==> RankedFrom(SelectSegments(order, c, family, fw, paths), Rank(order[0]))
    decreases |order|
  {
    if |order| > 0 {
      var rest := SelectSegments(order[1..], c, family, fw, paths);
      assert StrictlyRanked(order[1..]);
      SelectionKeepsOrder(order[1..], c, family, fw, paths);
      if |order| > 1 {
        assert Rank(order[0]) < Rank(order[1]);
        assert order[1..][0] == order[1];
        assert RankedFrom(rest, Rank(order[1]));
      }
      if Included(order[0], c, family, fw) {
        var segs := [SegmentOf(order[0], c, family, fw, paths)] + rest;
        assert forall i :: 1 <= i < |segs| ==> segs[i] == rest[i - 1];
        assert SelectSegments(order, c, family, fw, paths) == segs;
        assert segs[0].artifact == order[0];
      }
    }
  }

  /** The segment an artifact contributes, or nothing when its gate fails. */
  function OptionalSegment(a: Artifact, c: Chip, family: DeviceFamily, fw: Firmware, paths: ArtifactPaths): seq<Segment>
  {
    if Included(a, c, family, fw) then [SegmentOf(a, c, family, fw, paths)] else []
  }

  /** The plan's segments, one optional segment per artifact in the fixed order. */
  lemma PlanSegmentsSpelledOut(c: Chip, family: DeviceFamily, fw: Firmware, paths: ArtifactPaths)
    ensures SelectSegments(ArtifactOrder, c, family, fw, paths)
         == [SegmentOf(FirmwareImage, c, family, fw, paths)]
          + OptionalSegment(Partitions, c, family, fw, paths)
          + OptionalSegment(Bootloader, c, family, fw, paths)
          + OptionalSegment(Spiffs, c, family, fw, paths)
          + OptionalSegment(Otadata, c, family, fw, paths)
  {
    var o := ArtifactOrder;
    assert o[1..] == [Partitions, Bootloader, Spiffs, Otadata];
    assert o[1..][1..] == [Bootloader, Spiffs, Otadata];
    assert o[1..][1..][1..] == [Spiffs, Otadata];
    assert o[1..][1..][1..][1..] == [Otadata];
    assert o[1..][1..][1..][1..][1..] == [];
    var s4 := SelectSegments([Otadata], c, family, fw, paths);
    assert s4 == OptionalSegment(Otadata, c, family, fw, paths);
    var s3 := SelectSegments([Spiffs, Otadata], c, family, fw, paths);
    assert s3 == OptionalSegment(Spiffs, c, family, fw, paths) + s4;
    var s2 := SelectSegments([Bootloader, Spiffs, Otadata], c, family, fw, paths);
    assert s2 == OptionalSegment(Bootloader, c, family, fw, paths) + s3;
    var s1 := SelectSegments([Partitions, Bootloader, Spiffs, Otadata], c, family, fw, paths);
    assert s1 == OptionalSegment(Partitions, c, family, fw, paths) + s2;
  }

  /** A plan for esptool: the target port, chip, baud, ordered segments and erase choice. */
  datatype Plan = Plan(port: string, chip: Chip, baud: string, segments: seq<Segment>, eraseAll: bool)

  /** The plan a family and firmware call for. Each artifact has a segment exactly when its
      gate holds, at its own address and file; the firmware image always leads; the
      segments follow the fixed artifact order. */
  function PlanFor(
    c: Chip, family: DeviceFamily, fw: Firmware, baud: string, port: string, erase: bool, paths: ArtifactPaths)
    : (p: Plan)
    ensures p.port == port && p.chip == c && p.baud == baud && p.eraseAll == erase
    ensures |p.segments| > 0 && p.segments[0] == SegmentOf(FirmwareImage, c, family, fw, paths)
    ensures forall a :: HasSegment(p.segments, a) <==> Included(a, c, family, fw)
    ensures SegmentsFaithful(p.segments, c, family, fw, paths)
    ensures SegmentsRanked(p.segments)
  {
    var segs := SelectSegments(ArtifactOrder, c, family, fw, paths);
    PlanSegmentsFacts(c, family, fw, paths);
    Plan(port, c, baud, segs, erase)
  }

  lemma PlanSegmentsFacts(c: Chip, family: DeviceFamily, fw: Firmware, paths: ArtifactPaths)
    ensures var segs := SelectSegments(ArtifactOrder, c, family, fw, paths);
      && |segs| > 0 && segs[0] == SegmentOf(FirmwareImage, c, family, fw, paths)
      && (forall a :: HasSegment(segs, a) <==> Included(a, c, family, fw))
      && SegmentsFaithful(segs, c, family, fw, paths)
      && SegmentsRanked(segs)
  {
    var segs := SelectSegments(ArtifactOrder, c, family, fw, paths);
    SelectedAreIncluded(ArtifactOrder, c, family, fw, paths);
    assert StrictlyRanked(ArtifactOrder);
    SelectionKeepsOrder(ArtifactOrder, c, family, fw, paths);
    forall a | Included(a, c, family, fw) ensures HasSegment(segs, a) {
      assert a in ArtifactOrder;
      IncludedAreSelected(ArtifactOrder, c, family, fw, paths, a);
    }
    forall a | HasSegment(segs, a) ensures Included(a, c, family, fw) {
      var i :| 0 <= i < |segs| && segs[i].artifact == a;
    }
    assert segs[0].artifact == FirmwareImage by {
      var i :| 0 <= i < |segs| && segs[i].artifact == FirmwareImage;
      if i != 0 {
        assert Rank(segs[0].artifact) < Rank(segs[i].artifact);
      }
    }
  }

  /** The flags between the port and the segments. */
  function Header(c: Chip, baud: string): seq<string>
  {
    if IsEsp32Class(c) then
      ["--chip", ChipId(c), "--baud", baud, "--before", "default_reset", "--after", "hard_reset", "write_flash"] + FlashTuning(c)
    else
      ["--chip", ChipId(c), "write_flash"]
  }

  /** Each segment as its address followed by its file. */
  function Pairs(segs: seq<Segment>): (args: seq<string>)
    ensures |args| == 2 * |segs|
    decreases |segs|
  {
    if |segs| == 0 then [] else [segs[0].address, segs[0].file] + Pairs(segs[1..])
  }

  /** Position 2i holds the i-th segment's address and 2i+1 its file. */
  lemma {:induction false} PairsAt(segs: seq<Segment>)
    ensures forall i :: 0 <= i < |segs| ==> Pairs(segs)[2 * i] == segs[i].address && Pairs(segs)[2 * i + 1] == segs[i].file
    decreases |segs|
  {
    if |segs| > 0 {
      PairsAt(segs[1..]);
      var rest := Pairs(segs[1..]);
      assert Pairs(segs) == [segs[0].address, segs[0].file] + rest;
      forall i | 1 <= i < |segs|
        ensures Pairs(segs)[2 * i] == segs[i].address && Pairs(segs)[2 * i + 1] == segs[i].file
      {
        assert segs[1..][i - 1] == segs[i];
        assert Pairs(segs)[2 * i] == rest[2 * (i - 1)];
        assert Pairs(segs)[2 * i + 1] == rest[2 * (i - 1) + 1];
      }
    }
  }

  lemma {:induction false} PairsAppend(a: seq<Segment>, b: seq<Segment>)
    ensures Pairs(a + b) == Pairs(a) + Pairs(b)
    decreases |a|
  {
    if |a| == 0 {
      assert a + b == b;
    } else {
      assert (a + b)[1..] == a[1..] + b;
      PairsAppend(a[1..], b);
    }
  }

  function EraseFlag(erase: bool): seq<string>
  {
    if erase then ["--erase-all"] else []
  }

  /** The esptool argument vector for a plan: the port pair first, `-fs detect` last,
      `--erase-all` just before it when erasing. */
  function Render(p: Plan): (args: seq<string>)
    ensures |args| >= 4 && args[0] == "--port" && args[1] == p.port
    ensures args[|args| - 2..] == ["-fs", "detect"]
    ensures p.eraseAll ==> args[|args| - 3] == "--erase-all"
  {
    ["--port", p.port] + Header(p.chip, p.baud) + Pairs(p.segments) + EraseFlag(p.eraseAll) + ["-fs", "detect"]
  }

  /** Asking to erase changes nothing but the one flag before `-fs detect`. */
  lemma EraseOnlyInsertsFlag(p: Plan)
    ensures var keep := Render(p.(eraseAll := false));
            Render(p.(eraseAll := true)) == keep[..|keep| - 2] + ["--erase-all", "-fs", "detect"]
  {
    var body := ["--port", p.port] + Header(p.chip, p.baud) + Pairs(p.segments);
    assert Render(p.(eraseAll := false)) == body + ["-fs", "detect"];
    assert (body + ["-fs", "detect"])[..|body|] == body;
  }

  /** Every string a plan puts into the vector besides the fixed flags. */
  predicate NoTokenIs(p: Plan, flag: string)
  {
    p.port != flag && p.baud != flag &&
    forall i :: 0 <= i < |p.segments| ==> p.segments[i].address != flag && p.segments[i].file != flag
  }

  /** `--erase-all` occurs in the vector exactly when erasing was asked for, provided the
      port, baud, addresses and file names are not themselves that string. */
  lemma EraseFlagPresentIff(p: Plan)
    requires NoTokenIs(p, "--erase-all")
    ensures "--erase-all" in Render(p) <==> p.eraseAll
  {
    var args := Render(p);
    var head := ["--port", p.port] + Header(p.chip, p.baud);
    var pairs := Pairs(p.segments);
    assert "--erase-all" !in head;
    assert "--erase-all" !in pairs by {
      PairsAt(p.segments);
      forall k | 0 <= k < |pairs| ensures pairs[k] != "--erase-all" {
        var i := k / 2;
        if k % 2 == 0 { assert pairs[2 * i] == p.segments[i].address; }
        else { assert pairs[2 * i + 1] == p.segments[i].file; }
      }
    }
    assert args == head + pairs + EraseFlag(p.eraseAll) + ["-fs", "detect"];
  }

  /** avrdude's `-U` operand that writes a file to flash in Intel HEX format. */
  function FlashWriteOperation(file: string): string
  {
    "flash:w:" + file + ":i"
  }

  /** Reads the file back out of a `-U flash:w:<file>:i` operand. */
  function FileOfFlashWrite(op: string): Option<string>
  {
    if |op| >= 10 && op[..8] == "flash:w:" && op[|op| - 2..] == ":i" then Some(op[8..|op| - 2]) else None
  }

  lemma FlashWriteRoundTrip(file: string)
    ensures FileOfFlashWrite(FlashWriteOperation(file)) == Some(file)
  {
    var op := FlashWriteOperation(file);
    assert op[..8] == "flash:w:";
    assert op[|op| - 2..] == ":i";
    assert op[8..|op| - 2] == file;
  }

  /** The fixed avrdude command for an ATmega328P behind an Arduino bootloader, with
      auto-erase disabled. It takes the port and the firmware file and nothing else. */
  function AvrdudeCommand(port: string, firmwareFile: string): (args: seq<string>)
    ensures |args| == 10 && args[6] == port
    ensures args[..6] == ["avrdude", "-p", "atmega328p", "-c", "arduino", "-P"] && args[7..9] == ["-D", "-U"]
    ensures FileOfFlashWrite(args[9]) == Some(firmwareFile)
  {
    FlashWriteRoundTrip(firmwareFile);
    ["avrdude", "-p", "atmega328p", "-c", "arduino", "-P", port, "-D", "-U", FlashWriteOperation(firmwareFile)]
  }
}

=== FILE: legacy_builder.dfy ===
/** The older edition's command builder, the part of `flash_firmware_using_esptool` that
    assembles the esptool argument vector. It spells out one literal list per ESP32-class chip
    instead of a table, knows nothing of avrdude, and never looks at the flash method. */
module LegacyBuilder {
  import opened Catalog
  import opened Options
  import opened FlashPlan
  import opened Builder

  /** The family-specific part of the vector, one literal list per chip. None for a family
      name it does not know. */
  function LegacyFamilyExtension(family: DeviceFamily, fw: Firmware, baud: Baud, paths: ArtifactPaths)
    : Option<seq<string>>
  {
    var name := family.name;
    var b := BaudArgument(baud);
    if name == "ESP32" || name == "ESP32-S2" || name == "ESP32-C3" then
      var ext :=
        if name == "ESP32" then
          ["--chip", "esp32", "--baud", b, "--before", "default_reset", "--after", "hard_reset",
           "write_flash", "0x10000", paths.firmware]
        else if name == "ESP32-S2" then
          ["--chip", "esp32s2", "--baud", b, "--before", "default_reset", "--after", "hard_reset",
           "write_flash", "-z", "--flash_mode", "dio", "--flash_freq", "80m", "0x10000", paths.firmware]
        else
          ["--chip", "esp32c3", "--baud", b, "--before", "default_reset", "--after", "hard_reset",
           "write_flash", "-z", "--flash_mode", "dio", "--flash_freq", "80m", "0x10000", paths.firmware];
      var ext := AppendIf(ext, |fw.downloadUrlPartitions| > 0 && |fw.checksumPartitions| > 0, "0x8000", paths.partitions);
      var ext := AppendIf(ext, |family.downloadUrlBootloader| > 0 && |family.checksumBootloader| > 0,
                          if name == "ESP32-C3" then "0x0" else "0x1000", paths.bootloader);
      Some(ext)
    else if name == "ESP8266" then
      Some(["--chip", "esp8266", "write_flash", "0x00000", paths.firmware])
    else
      None
  }

  /** The whole vector, or None (the function returns False) for an unknown family. The
      spiffs and otadata pairs are gated exactly as in the newer edition, so the newer
      edition's `StorageExtension` is reused. */
  function BuildEsptoolCommand(family: DeviceFamily, fw: Firmware, baud: Baud, port: string, erase: bool, paths: ArtifactPaths)
    : Option<seq<string>>
  {
    match LegacyFamilyExtension(family, fw, baud, paths)
    case None => None
    case Some(ext) =>
      var command := ["--port", port] + StorageExtension(ext, family, fw, paths);
      var command := if erase then command + ["--erase-all"] else command;
      Some(command + ["-fs", "detect"])
  }

  lemma TableRowEsp32(b: string, file: string)
    ensures ["--chip", "esp32", "--baud", b, "--before", "default_reset", "--after", "hard_reset",
             "write_flash", "0x10000", file]
         == ["--chip", FlashOptionsTable("ESP32")[0], "--baud", b, "--before", "default_reset", "--after", "hard_reset",
             "write_flash"] + FlashOptionsTable("ESP32")[1..] + [file]
  {
  }

  lemma TableRowTuned(name: string, id: string, b: string, file: string)
    requires name == "ESP32-S2" || name == "ESP32-C3"
    requires id == FlashOptionsTable(name)[0]
    ensures ["--chip", id, "--baud", b, "--before", "default_reset", "--after", "hard_reset",
             "write_flash", "-z", "--flash_mode", "dio", "--flash_freq", "80m", "0x10000", file]
         == ["--chip", FlashOptionsTable(name)[0], "--baud", b, "--before", "default_reset", "--after", "hard_reset",
             "write_flash"] + FlashOptionsTable(name)[1..] + [file]
  {
    assert FlashOptionsTable(name)[1..] == ["-z", "--flash_mode", "dio", "--flash_freq", "80m", "0x10000"];
  }

  /** The older literal lists are the newer edition's table, row by row: both editions build
      the same family-specific part. */
  lemma LegacyExtensionMatchesNewer(family: DeviceFamily, fw: Firmware, baud: Baud, paths: ArtifactPaths)
    ensures LegacyFamilyExtension(family, fw, baud, paths) == FamilyExtension(family, fw, baud, paths)
  {
    var b := BaudArgument(baud);
    if family.name == "ESP32" {
      TableRowEsp32(b, paths.firmware);
    } else if family.name == "ESP32-S2" {
      TableRowTuned(family.name, "esp32s2", b, paths.firmware);
    } else if family.name == "ESP32-C3" {
      TableRowTuned(family.name, "esp32c3", b, paths.firmware);
    }
  }

  /** The older builder produces the rendered flash plan for every family it knows and None
      for every other, whatever the family's flash method. */
  lemma LegacyMatchesPlan(family: DeviceFamily, fw: Firmware, baud: Baud, port: string, erase: bool, paths: ArtifactPaths)
    ensures ChipOfFamily(family.name).None? ==> BuildEsptoolCommand(family, fw, baud, port, erase, paths).None?
    ensures ChipOfFamily(family.name).Some? ==>
      BuildEsptoolCommand(family, fw, baud, port, erase, paths)
        == Some(Render(PlanFor(ChipOfFamily(family.name).value, family, fw, BaudArgument(baud), port, erase, paths)))
  {
    LegacyExtensionMatchesNewer(family, fw, baud, paths);
    if ChipOfFamily(family.name).Some? {
      var c := ChipOfFamily(family.name).value;
      var b := BaudArgument(baud);
      ExtensionMatchesPlan(c, family, fw, baud, paths);
      var ext := FamilyExtension(family, fw, baud, paths).value;
      var p := PlanFor(c, family, fw, b, port, erase, paths);
      var mid := StorageExtension(ext, family, fw, paths);
      assert mid == Header(c, b) + Pairs(p.segments);
      var command := ["--port", port] + mid;
      var command' := if erase then command + ["--erase-all"] else command;
      assert command' == command + EraseFlag(erase);
      RegroupRender(["--port", port], Header(c, b), Pairs(p.segments), EraseFlag(erase), ["-fs", "detect"]);
    }
  }

  /** For a family whose flash method is esptool the two editions build the same vector, and
      an unknown family fails in both. */
  lemma LegacyAgreesWithNewer(family: DeviceFamily, fw: Firmware, baud: Baud, port: string, erase: bool, paths: ArtifactPaths)
    requires family.flashMethod == "esptool"
    ensures BuildEsptoolCommand(family, fw, baud, port, erase, paths).None?
        <==> BuildCommand(family, fw, baud, port, erase, paths) == InvalidFamily
    ensures BuildEsptoolCommand(family, fw, baud, port, erase, paths).Some? ==>
      BuildCommand(family, fw, baud, port, erase, paths)
        == Built(EsptoolArgs(BuildEsptoolCommand(family, fw, baud, port, erase, paths).value))
  {
    LegacyMatchesPlan(family, fw, baud, port, erase, paths);
    BuildCommandMatchesPlan(family, fw, baud, port, erase, paths);
  }

  /** The older builder ignores the flash method: an ESP-named family marked for avrdude
      still gets an esptool vector, where the newer edition builds the avrdude command. */
  lemma LegacyIgnoresFlashMethod(family: DeviceFamily, fw: Firmware, baud: Baud, port: string, erase: bool, paths: ArtifactPaths)
    requires family.flashMethod == "avrdude" && ChipOfFamily(family.name).Some?
    ensures BuildEsptoolCommand(family, fw, baud, port, erase, paths).Some?
    ensures BuildCommand(family, fw, baud, port, erase, paths) == Built(AvrdudeArgs(AvrdudeCommand(port, paths.firmware)))
  {
    LegacyMatchesPlan(family, fw, baud, port, erase, paths);
  }
}

=== FILE: options.dfy ===
/** The user options `main` settles before flashing: the baud rate and whether to erase
    the flash first, from the command-line flags, the prompts, and the flash method. */
module Options {
  import opened Catalog
  import Text

  /** A baud rate as `main` holds it: the command-line value is a string (a `click.Choice`
      of the supported rates), the menu and the avrdude override give an int. */
  datatype Baud = BaudText(text: string) | BaudRate(rate: nat)

  /** The rate `main` fixes for avrdude families. */
  const AvrdudeBaudRate: nat := 115200

  /** `str(baud)`, the form the esptool argument vector carries. */
  function BaudArgument(b: Baud): (s: string)
    ensures b.BaudText? ==> s == b.text
    ensures b.BaudRate? ==> (forall i :: 0 <= i < |s| ==> Text.IsDigit(s[i])) && Text.DecimalValue(s) == b.rate
  {
    match b
    case BaudText(t) => t
    case BaudRate(n) => Text.DecimalRoundTrip(n); Text.DecimalString(n)
  }

  /** `erase_flash and dont_erase_flash` is truthy: both flags were given. */
  predicate ConflictingEraseFlags(eraseFlash: Option<bool>, dontEraseFlash: Option<bool>)
  {
    eraseFlash == Some(true) && dontEraseFlash == Some(true)
  }

  /** The settled options, and which of the two prompts had to be shown to settle them. */
  datatype Choices = Choices(baud: Baud, erase: bool, askedBaud: bool, askedErase: bool)

  /** The newer edition's resolution. `baudAnswer` and `eraseAnswer` are what the baud menu
      and the erase prompt would return; they are consulted only when the prompt is shown. */
  function ResolveChoices(
    isAvrdude: bool, baudFlag: Option<string>, eraseFlash: Option<bool>, dontEraseFlash: Option<bool>,
    baudAnswer: nat, eraseAnswer: string): (c: Choices)
    ensures isAvrdude ==> c == Choices(BaudRate(AvrdudeBaudRate), true, false, false)
    ensures !isAvrdude ==> (c.askedBaud <==> baudFlag.None?)
    ensures !isAvrdude && baudFlag.Some? ==> c.baud == BaudText(baudFlag.value)
    ensures !isAvrdude && baudFlag.None? ==> c.baud == BaudRate(baudAnswer)
    ensures !isAvrdude ==> (c.askedErase <==> eraseFlash.None? && dontEraseFlash.None?)
    ensures !isAvrdude && eraseFlash.Some? ==> c.erase == eraseFlash.value
    ensures !isAvrdude && eraseFlash.None? && dontEraseFlash.Some? ==> c.erase == !dontEraseFlash.value
    ensures c.askedErase ==> c.erase == Text.IsAffirmative(eraseAnswer)
  {
    if isAvrdude then
      Choices(BaudRate(AvrdudeBaudRate), true, false, false)
    else
      var baud := if baudFlag.None? then BaudRate(baudAnswer) else BaudText(baudFlag.value);
      if eraseFlash.None? && dontEraseFlash.None? then
        Choices(baud, Text.IsAffirmative(eraseAnswer), baudFlag.None?, true)
      else if eraseFlash.Some? then
        Choices(baud, eraseFlash.value, baudFlag.None?, false)
      else
        Choices(baud, !dontEraseFlash.value, baudFlag.None?, false)
  }

  /** The older edition's resolution: no avrdude override and no `--dont-erase-flash`. */
  function ResolveChoicesLegacy(baudFlag: Option<string>, eraseFlash: Option<bool>, baudAnswer: nat, eraseAnswer: string)
    : (c: Choices)
    ensures c.askedBaud <==> baudFlag.None?
    ensures c.baud == if baudFlag.Some? then BaudText(baudFlag.value) else BaudRate(baudAnswer)
    ensures c.askedErase <==> eraseFlash.None?
    ensures c.erase == if eraseFlash.Some? then eraseFlash.value else Text.IsAffirmative(eraseAnswer)
  {
    var baud := if baudFlag.None? then BaudRate(baudAnswer) else BaudText(baudFlag.value);
    if eraseFlash.None? then Choices(baud, Text.IsAffirmative(eraseAnswer), baudFlag.None?, true)
    else Choices(baud, eraseFlash.value, baudFlag.None?, false)
  }

  /** A prompt answer matters only when its prompt is shown: when the options are settled
      by flags (or by the avrdude override), any other answers give the same choices. */
  lemma AnswersMatterOnlyWhenAsked(
    isAvrdude: bool, baudFlag: Option<string>, eraseFlash: Option<bool>, dontEraseFlash: Option<bool>,
    baudAnswer: nat, eraseAnswer: string, baudAnswer': nat, eraseAnswer': string)
    ensures var c := ResolveChoices(isAvrdude, baudFlag, eraseFlash, dontEraseFlash, baudAnswer, eraseAnswer);
            var c' := ResolveChoices(isAvrdude, baudFlag, eraseFlash, dontEraseFlash, baudAnswer', eraseAnswer');
            (!c.askedBaud ==> c.baud == c'.baud) && (!c.askedErase ==> c.erase == c'.erase)
  {
  }

  /** A single erase flag decides: `--erase-flash` alone erases whatever the flash method;
      `--dont-erase-flash` alone keeps the flash for an esptool family (an avrdude family is
      always set to erase). */
  lemma SingleFlagDecides(isAvrdude: bool, baudFlag: Option<string>, baudAnswer: nat, eraseAnswer: string)
    ensures ResolveChoices(isAvrdude, baudFlag, Some(true), None, baudAnswer, eraseAnswer).erase
    ensures !isAvrdude ==> !ResolveChoices(isAvrdude, baudFlag, None, Some(true), baudAnswer, eraseAnswer).erase
  {
  }

  /** Without `--dont-erase-flash`, the newer edition settles an esptool family's options
      exactly as the older edition does. */
  lemma ResolutionMatchesLegacy(baudFlag: Option<string>, eraseFlash: Option<bool>, baudAnswer: nat, eraseAnswer: string)
    ensures ResolveChoices(false, baudFlag, eraseFlash, None, baudAnswer, eraseAnswer)
         == ResolveChoicesLegacy(baudFlag, eraseFlash, baudAnswer, eraseAnswer)
  {
  }
}

=== FILE: pipeline.dfy ===
/** The flashing pipeline of both editions: verify the catalog, download the artifacts, build
    the command, perform the 1200 bps touch when the family asks for it, then invoke the
    backend. The web check, the download, the serial touch and the backend are outside
    effects; their outcomes are inputs (`Oracles`), and a run records which of them were
    attempted, in order. */
module Pipeline {
  import opened Catalog
  import opened Options
  import opened FlashPlan
  import opened Builder
  import opened LegacyBuilder

  /** How opening the port at 1200 bps ends: normally, with a `SerialException` (caught,
      reported and re-raised), or with any other exception (not caught, so it escapes). */
  datatype TouchOutcome = TouchOk | TouchSerialError | TouchOtherError

  /** How `esptool.main` (or `subprocess.run` for avrdude) ends: normally, with a
      `SerialException`, or with any other exception. */
  datatype BackendOutcome = BackendOk | BackendSerialError | BackendOtherError

  /** What each outside effect would do if it were attempted. */
  datatype Oracles = Oracles(verifyOk: bool, downloadOk: bool, touch: TouchOutcome, backend: BackendOutcome)

  /** The outside effects a run attempts. */
  datatype Event = VerifyCall | DownloadCall | TouchAttempt | BackendCall(command: Command)

  /** The exceptions a flash function can raise: a `SerialException`, the `ValueError` for an
      unknown flash method, or any other exception escaping the touch. */
  datatype PyError = SerialException | ValueError | OtherException

  /** How the flash function ends: `return False`, falling off the end (None), or raising. */
  datatype FlashReturn = ReturnedFalse | ReturnedNone | Raised(error: PyError)

  datatype Run = Run(events: seq<Event>, result: FlashReturn)

  /** The position of each effect in the pipeline. */
  function Stage(e: Event): nat
  {
    match e
    case VerifyCall => 0
    case DownloadCall => 1
    case TouchAttempt => 2
    case BackendCall(_) => 3
  }

  /** Effects are attempted in pipeline order, each at most once. */
  predicate Ordered(events: seq<Event>)
  {
    forall i, j :: 0 <= i < j < |events| ==> Stage(events[i]) < Stage(events[j])
  }

  predicate Invoked(r: Run)
  {
    exists i :: 0 <= i < |r.events| && r.events[i].BackendCall?
  }

  /** The touch fails exactly when it is needed and opening the serial port raises. */
  predicate TouchFails(family: DeviceFamily, o: Oracles)
  {
    family.use1200BpsTouch && o.touch != TouchOk
  }

  /** What a failed touch raises: its `SerialException` again, or whatever else escaped. */
  function TouchError(t: TouchOutcome): PyError
  {
    if t == TouchSerialError then SerialException else OtherException
  }

  /** The end of the pipeline once a command is built: the optional touch, then the backend.
      A failed touch raises; a `SerialException` from the backend is re-raised; any other
      backend exception returns False. */
  function TouchAndInvoke(family: DeviceFamily, command: Command, o: Oracles): (r: Run)
    ensures Ordered(r.events)
    ensures forall i :: 0 <= i < |r.events| ==> Stage(r.events[i]) >= 2
    ensures Invoked(r) <==> !TouchFails(family, o)
    ensures Invoked(r) ==> r.events[|r.events| - 1] == BackendCall(command)
    ensures TouchAttempt in r.events <==> family.use1200BpsTouch
    ensures r.result == ReturnedNone <==> Invoked(r) && o.backend == BackendOk
    ensures r.result == Raised(SerialException) <==>
      if TouchFails(family, o) then o.touch == TouchSerialError else o.backend == BackendSerialError
    ensures r.result == Raised(OtherException) <==> TouchFails(family, o) && o.touch == TouchOtherError
    ensures r.result == ReturnedFalse <==> Invoked(r) && o.backend == BackendOtherError
    ensures r.result != Raised(ValueError)
  {
    var touch := if family.use1200BpsTouch then [TouchAttempt] else [];
    if TouchFails(family, o) then
      Run(touch, Raised(TouchError(o.touch)))
    else
      var events := touch + [BackendCall(command)];
      assert events[|events| - 1].BackendCall?;
      match o.backend
      case BackendOk => Run(events, ReturnedNone)
      case BackendSerialError => Run(events, Raised(SerialException))
      case BackendOtherError => Run(events, ReturnedFalse)
  }

  /** The web check and the download, then what follows them. */
  function AfterGates(o: Oracles, rest: Run): (r: Run)
    requires Ordered(rest.events)
    requires forall i :: 0 <= i < |rest.events| ==> Stage(rest.events[i]) >= 2
    ensures Ordered(r.events)
    ensures |r.events| > 0 && r.events[0] == VerifyCall
    ensures DownloadCall in r.events <==> o.verifyOk
    ensures o.verifyOk && o.downloadOk ==> r == Run([VerifyCall, DownloadCall] + rest.events, rest.result)
    ensures !(o.verifyOk && o.downloadOk) ==> r.result == ReturnedFalse && !Invoked(r)
  {
    if !o.verifyOk then Run([VerifyCall], ReturnedFalse)
    else if !o.downloadOk then Run([VerifyCall, DownloadCall], ReturnedFalse)
    else
      var events := [VerifyCall, DownloadCall] + rest.events;
      assert forall i :: 2 <= i < |events| ==> events[i] == rest.events[i - 2];
      Run(events, rest.result)
  }

  /** Lifts the facts about the tail of a run through the gates in front of it. */
  lemma GatesKeepTail(o: Oracles, rest: Run)
    requires Ordered(rest.events)
    requires forall i :: 0 <= i < |rest.events| ==> Stage(rest.events[i]) >= 2
    requires o.verifyOk && o.downloadOk
    ensures Invoked(AfterGates(o, rest)) <==> Invoked(rest)
    ensures TouchAttempt in AfterGates(o, rest).events <==> TouchAttempt in rest.events
    ensures |rest.events| > 0 ==> AfterGates(o, rest).events[|AfterGates(o, rest).events| - 1] == rest.events[|rest.events| - 1]
  {
    var events := AfterGates(o, rest).events;
    assert events == [VerifyCall, DownloadCall] + rest.events;
    if Invoked(AfterGates(o, rest)) {
      var i :| 0 <= i < |events| && events[i].BackendCall?;
      assert rest.events[i - 2].BackendCall?;
    }
    if Invoked(rest) {
      var i :| 0 <= i < |rest.events| && rest.events[i].BackendCall?;
      assert events[i + 2].BackendCall?;
    }
  }

  /** The run of a built outcome once the gates have passed. */
  function Tail(family: DeviceFamily, built: BuildOutcome, o: Oracles): (r: Run)
    ensures Ordered(r.events)
    ensures forall i :: 0 <= i < |r.events| ==> Stage(r.events[i]) >= 2
    ensures !built.Built? ==> r.events == []
    ensures built == InvalidFamily ==> r.result == ReturnedFalse
    ensures built == InvalidFlashMethod ==> r.result == Raised(ValueError)
    ensures built.Built? ==> r == TouchAndInvoke(family, built.command, o)
  {
    match built
    case InvalidFamily => Run([], ReturnedFalse)
    case InvalidFlashMethod => Run([], Raised(ValueError))
    case Built(command) => TouchAndInvoke(family, command, o)
  }

  /** `flash_firmware_using_whatever_is_appropriate`: the family comes from the firmware's own
      back-reference. Nothing is attempted without a family; the download needs a passed web
      check; the backend is invoked only after both gates, a valid command and a touch that
      did not fail, and it is invoked at most once, last, with the built command. */
  function FlashCurrent(fw: Firmware, baud: Baud, port: string, erase: bool, paths: ArtifactPaths, o: Oracles): (r: Run)
    ensures Ordered(r.events)
    ensures fw.family.None? ==> r == Run([], ReturnedFalse)
    ensures fw.family.Some? ==> |r.events| > 0 && r.events[0] == VerifyCall
    ensures DownloadCall in r.events <==> fw.family.Some? && o.verifyOk
    ensures Invoked(r) <==>
      && fw.family.Some? && o.verifyOk && o.downloadOk
      && BuildCommand(fw.family.value, fw, baud, port, erase, paths).Built?
      && !TouchFails(fw.family.value, o)
    ensures Invoked(r) ==>
      r.events[|r.events| - 1] == BackendCall(BuildCommand(fw.family.value, fw, baud, port, erase, paths).command)
    ensures r.result == Raised(ValueError) <==>
      fw.family.Some? && o.verifyOk && o.downloadOk
      && BuildCommand(fw.family.value, fw, baud, port, erase, paths) == InvalidFlashMethod
    ensures r.result == ReturnedNone <==> Invoked(r) && o.backend == BackendOk
    ensures TouchAttempt in r.events <==>
      && fw.family.Some? && o.verifyOk && o.downloadOk
      && BuildCommand(fw.family.value, fw, baud, port, erase, paths).Built?
      && fw.family.value.use1200BpsTouch
    ensures r.result == Raised(SerialException) <==>
      && fw.family.Some? && o.verifyOk && o.downloadOk
      && BuildCommand(fw.family.value, fw, baud, port, erase, paths).Built?
      && (if TouchFails(fw.family.value, o) then o.touch == TouchSerialError else o.backend == BackendSerialError)
    ensures r.result == Raised(OtherException) <==>
      && fw.family.Some? && o.verifyOk && o.downloadOk
      && BuildCommand(fw.family.value, fw, baud, port, erase, paths).Built?
      && TouchFails(fw.family.value, o) && o.touch == TouchOtherError
  {
    match fw.family
    case None => Run([], ReturnedFalse)
    case Some(family) =>
      var built := BuildCommand(family, fw, baud, port, erase, paths);
      var rest := if o.verifyOk && o.downloadOk then Tail(family, built, o) else Run([], ReturnedFalse);
      GatesOutcome(family, built, o);
      AfterGates(o, rest)
  }

  /** The facts `FlashCurrent` and `FlashLegacy` share, about the gated run of a built outcome. */
  lemma GatesOutcome(family: DeviceFamily, built: BuildOutcome, o: Oracles)
    ensures var rest := if o.verifyOk && o.downloadOk then Tail(family, built, o) else Run([], ReturnedFalse);
      var r := AfterGates(o, rest);
      && (Invoked(r) <==> o.verifyOk && o.downloadOk && built.Built? && !TouchFails(family, o))
      && (Invoked(r) ==> r.events[|r.events| - 1] == BackendCall(built.command))
      && (r.result == Raised(ValueError) <==> o.verifyOk && o.downloadOk && built == InvalidFlashMethod)
      && (r.result == ReturnedNone <==> Invoked(r) && o.backend == BackendOk)
      && (TouchAttempt in r.events <==> o.verifyOk && o.downloadOk && built.Built? && family.use1200BpsTouch)
      && (r.result == Raised(SerialException) <==>
            o.verifyOk && o.downloadOk && built.Built?
            && (if TouchFails(family, o) then o.touch == TouchSerialError else o.backend == BackendSerialError))
      && (r.result == Raised(OtherException) <==>
            o.verifyOk && o.downloadOk && built.Built? && TouchFails(family, o) && o.touch == TouchOtherError)
  {
    if o.verifyOk && o.downloadOk {
      var rest := Tail(family, built, o);
      GatesKeepTail(o, rest);
    }
  }

  /** `flash_firmware_using_esptool`: the family is passed in, the command always targets
      esptool, and an unknown family returns False. */
  function FlashLegacy(
    family: Option<DeviceFamily>, fw: Firmware, baud: Baud, port: string, erase: bool, paths: ArtifactPaths, o: Oracles)
    : (r: Run)
    ensures Ordered(r.events)
    ensures family.None? ==> r == Run([], ReturnedFalse)
    ensures family.Some? ==> |r.events| > 0 && r.events[0] == VerifyCall
    ensures DownloadCall in r.events <==> family.Some? && o.verifyOk
    ensures Invoked(r) <==>
      && family.Some? && o.verifyOk && o.downloadOk
      && BuildEsptoolCommand(family.value, fw, baud, port, erase, paths).Some?
      && !TouchFails(family.value, o)
    ensures Invoked(r) ==>
      r.events[|r.events| - 1] == BackendCall(EsptoolArgs(BuildEsptoolCommand(family.value, fw, baud, port, erase, paths).value))
    ensures r.result != Raised(ValueError)
    ensures r.result == ReturnedNone <==> Invoked(r) && o.backend == BackendOk
    ensures TouchAttempt in r.events <==>
      && family.Some? && o.verifyOk && o.downloadOk
      && BuildEsptoolCommand(family.value, fw, baud, port, erase, paths).Some?
      && family.value.use1200BpsTouch
    ensures r.result == Raised(SerialException) <==>
      && family.Some? && o.verifyOk && o.downloadOk
      && BuildEsptoolCommand(family.value, fw, baud, port, erase, paths).Some?
      && (if TouchFails(family.value, o) then o.touch == TouchSerialError else o.backend == BackendSerialError)
    ensures r.result == Raised(OtherException) <==>
      && family.Some? && o.verifyOk && o.downloadOk
      && BuildEsptoolCommand(family.value, fw, baud, port, erase, paths).Some?
      && TouchFails(family.value, o) && o.touch == TouchOtherError
  {
    match family
    case None => Run([], ReturnedFalse)
    case Some(f) =>
      var built := LegacyOutcome(BuildEsptoolCommand(f, fw, baud, port, erase, paths));
      var rest := if o.verifyOk && o.downloadOk then Tail(f, built, o) else Run([], ReturnedFalse);
      GatesOutcome(f, built, o);
      AfterGates(o, rest)
  }

  /** The older builder's result in the newer builder's terms. */
  function LegacyOutcome(command: Option<seq<string>>): (b: BuildOutcome)
    ensures b != InvalidFlashMethod
    ensures b.Built? <==> command.Some?
    ensures command.Some? ==> b == Built(EsptoolArgs(command.value))
  {
    match command
    case None => InvalidFamily
    case Some(args) => Built(EsptoolArgs(args))
  }

  /** With a firmware whose back-reference is the family itself and whose flash method is
      esptool, the two editions' flash functions attempt the same effects and end the same way,
      provided the outside effects answer both alike (one `o` for both): the editions send the
      web check different version strings and the download different arguments, so a website
      that told them apart is not covered. */
  lemma FlashLegacyMatchesCurrent(
    family: DeviceFamily, fw: Firmware, baud: Baud, port: string, erase: bool, paths: ArtifactPaths, o: Oracles)
    requires fw.family == Some(family) && family.flashMethod == "esptool"
    ensures FlashLegacy(Some(family), fw, baud, port, erase, paths, o) == FlashCurrent(fw, baud, port, erase, paths, o)
  {
    LegacyAgreesWithNewer(family, fw, baud, port, erase, paths);
    assert LegacyOutcome(BuildEsptoolCommand(family, fw, baud, port, erase, paths))
        == BuildCommand(family, fw, baud, port, erase, paths);
  }

  /** A failed web check attempts nothing further; a failed download invokes nothing. */
  lemma GateFailuresStopEarly(fw: Firmware, baud: Baud, port: string, erase: bool, paths: ArtifactPaths, o: Oracles)
    requires fw.family.Some?
    ensures !o.verifyOk ==> FlashCurrent(fw, baud, port, erase, paths, o) == Run([VerifyCall], ReturnedFalse)
    ensures o.verifyOk && !o.downloadOk ==>
      FlashCurrent(fw, baud, port, erase, paths, o) == Run([VerifyCall, DownloadCall], ReturnedFalse)
  {
  }

  /** A failed touch raises before the backend is ever invoked: a `SerialException` is
      re-raised, and any other exception escapes as it is. */
  lemma TouchFailureRaises(fw: Firmware, baud: Baud, port: string, erase: bool, paths: ArtifactPaths, o: Oracles)
    requires fw.family.Some? && o.verifyOk && o.downloadOk && TouchFails(fw.family.value, o)
    requires BuildCommand(fw.family.value, fw, baud, port, erase, paths).Built?
    ensures FlashCurrent(fw, baud, port, erase, paths, o)
         == Run([VerifyCall, DownloadCall, TouchAttempt],
                Raised(if o.touch == TouchSerialError then SerialException else OtherException))
  {
  }

  /** The backend is invoked at most once in any run. */
  lemma InvokedAtMostOnce(r: Run, i: int, j: int)
    requires Ordered(r.events)
    requires 0 <= i < |r.events| && 0 <= j < |r.events|
    requires r.events[i].BackendCall? && r.events[j].BackendCall?
    ensures i == j
  {
  }
}

=== FILE: scenarios.dfy ===
/** Worked examples: concrete families and firmware run through the newer builder. */
module Scenarios {
  import opened Catalog
  import opened Options
  import opened FlashPlan
  import opened Builder

  /** A family record with a bootloader and no otadata. */
  function FamilyWithBootloader(name: string, flashMethod: string): DeviceFamily
  {
    DeviceFamily(1, name, flashMethod, "https://example.invalid/boot.bin", "abc123", "", "", "", false)
  }

  /** A firmware record with only the image itself: no partitions, no spiffs. */
  function PlainFirmware(family: DeviceFamily): Firmware
  {
    Firmware(7, Some(family), "", "", "", "", "")
  }

  /** ESP32-S2 with a bootloader and no partition table, at 460800 baud, erasing first. */
  lemma Esp32S2WithBootloader(port: string, paths: ArtifactPaths)
    ensures var family := FamilyWithBootloader("ESP32-S2", "esptool");
      BuildCommand(family, PlainFirmware(family), BaudText("460800"), port, true, paths)
        == Built(EsptoolArgs(["--port", port, "--chip", "esp32s2", "--baud", "460800",
                              "--before", "default_reset", "--after", "hard_reset", "write_flash",
                              "-z", "--flash_mode", "dio", "--flash_freq", "80m",
                              "0x10000", paths.firmware, "0x1000", paths.bootloader,
                              "--erase-all", "-fs", "detect"]))
  {
    var family := FamilyWithBootloader("ESP32-S2", "esptool");
    var fw := PlainFirmware(family);
    var head := ["--chip", "esp32s2", "--baud", "460800", "--before", "default_reset", "--after", "hard_reset",
                 "write_flash", "-z", "--flash_mode", "dio", "--flash_freq", "80m", "0x10000", paths.firmware];
    var mid := head + ["0x1000", paths.bootloader];
    assert FlashOptionsTable(family.name)[1..] == ["-z", "--flash_mode", "dio", "--flash_freq", "80m", "0x10000"];
    var options := FlashOptionsTable(family.name);
    assert ["--chip", options[0], "--baud", "460800", "--before", "default_reset", "--after", "hard_reset",
            "write_flash"] + options[1..] + [paths.firmware] == head;
    assert AppendIf(head, false, "0x8000", paths.partitions) == head;
    assert FamilyExtension(family, fw, BaudText("460800"), paths) == Some(mid);
    assert StorageExtension(mid, family, fw, paths) == mid;
    assert ["--port", port] + mid + ["--erase-all"] + ["-fs", "detect"]
        == ["--port", port] + head + ["0x1000", paths.bootloader, "--erase-all", "-fs", "detect"];
    assert ["--port", port] + head + ["0x1000", paths.bootloader, "--erase-all", "-fs", "detect"]
        == ["--port", port, "--chip", "esp32s2", "--baud", "460800",
            "--before", "default_reset", "--after", "hard_reset", "write_flash",
            "-z", "--flash_mode", "dio", "--flash_freq", "80m",
            "0x10000", paths.firmware, "0x1000", paths.bootloader,
            "--erase-all", "-fs", "detect"];
  }

  /** A firmware record that also carries a partition table. */
  function PartitionedFirmware(family: DeviceFamily): Firmware
  {
    Firmware(8, Some(family), "https://example.invalid/parts.bin", "def456", "", "", "")
  }

  /** ESP32-C3 with a partition table and a bootloader, at 921600 baud, without erasing:
      the partition table goes to 0x8000 before the bootloader at 0x0, and no `--erase-all`. */
  lemma Esp32C3PartitionedNoErase(port: string, paths: ArtifactPaths)
    ensures var family := FamilyWithBootloader("ESP32-C3", "esptool");
      BuildCommand(family, PartitionedFirmware(family), BaudText("921600"), port, false, paths)
        == Built(EsptoolArgs(["--port", port, "--chip", "esp32c3", "--baud", "921600",
                              "--before", "default_reset", "--after", "hard_reset", "write_flash",
                              "-z", "--flash_mode", "dio", "--flash_freq", "80m",
                              "0x10000", paths.firmware, "0x8000", paths.partitions, "0x0", paths.bootloader,
                              "-fs", "detect"]))
  {
    var family := FamilyWithBootloader("ESP32-C3", "esptool");
    var fw := PartitionedFirmware(family);
    var head := ["--chip", "esp32c3", "--baud", "921600", "--before", "default_reset", "--after", "hard_reset",
                 "write_flash", "-z", "--flash_mode", "dio", "--flash_freq", "80m", "0x10000", paths.firmware];
    var withParts := head + ["0x8000", paths.partitions];
    var mid := withParts + ["0x0", paths.bootloader];
    assert FlashOptionsTable(family.name)[1..] == ["-z", "--flash_mode", "dio", "--flash_freq", "80m", "0x10000"];
    var options := FlashOptionsTable(family.name);
    assert ["--chip", options[0], "--baud", "921600", "--before", "default_reset", "--after", "hard_reset",
            "write_flash"] + options[1..] + [paths.firmware] == head;
    assert AppendIf(head, true, "0x8000", paths.partitions) == withParts;
    assert FamilyExtension(family, fw, BaudText("921600"), paths) == Some(mid);
    assert StorageExtension(mid, family, fw, paths) == mid;
    assert ["--port", port] + mid + ["-fs", "detect"]
        == ["--port", port] + head + ["0x8000", paths.partitions, "0x0", paths.bootloader, "-fs", "detect"];
    assert ["--port", port] + head + ["0x8000", paths.partitions, "0x0", paths.bootloader, "-fs", "detect"]
        == ["--port", port, "--chip", "esp32c3", "--baud", "921600",
            "--before", "default_reset", "--after", "hard_reset", "write_flash",
            "-z", "--flash_mode", "dio", "--flash_freq", "80m",
            "0x10000", paths.firmware, "0x8000", paths.partitions, "0x0", paths.bootloader,
            "-fs", "detect"];
  }

  /** An avrdude family gets the fixed template whatever baud and erase choice are passed. */
  lemma AvrdudeTemplate(port: string, paths: ArtifactPaths, baud: Baud, erase: bool)
    ensures var family := FamilyWithBootloader("Arduino Uno", "avrdude");
      BuildCommand(family, PlainFirmware(family), baud, port, erase, paths)
        == Built(AvrdudeArgs(["avrdude", "-p", "atmega328p", "-c", "arduino", "-P", port, "-D",
                              "-U", "flash:w:" + paths.firmware + ":i"]))
  {
  }
}

=== FILE: session.dfy ===
/** Both editions' `main`: the flag check, the catalog, the firmware selection, the avrdude
    check, the baud and erase choices, the two confirmations, the flash call and the cleanup.
    Everything `main` asks the outside world (the website, the menus, the prompts, the serial
    device scan, the path lookup) is an input (`World`), and a session records the steps it
    took and how the process ended. */
module Session {
  import opened Catalog
  import opened Text
  import opened Options
  import opened FlashPlan
  import opened Builder
  import opened LegacyBuilder
  import opened Pipeline

  /** The command-line options. `--firmware` is already an int (the parse of its text is not
      modelled). The older edition has no `--dont-erase-flash` and ignores that field. */
  datatype Args = Args(
    firmware: Option<int>,
    serialPort: Option<string>,
    baud: Option<string>,
    eraseFlash: Option<bool>,
    dontEraseFlash: Option<bool>)

  /** The answers of the outside world, each consulted only if `main` gets that far. One
      `oracles` value serves both editions, although their web checks report different
      versions and their downloads different arguments: comparing the editions on one world
      assumes the website answers both alike. */
  datatype World = World(
    catalogLoaded: bool,
    projects: seq<Project>,
    menuSelection: Selection,
    avrdudeFound: bool,
    avrdudeExeFound: bool,
    baudAnswer: nat,
    eraseAnswer: string,
    firmwareAnswer: string,
    detectedDevice: Option<string>,
    deviceAnswer: string,
    paths: ArtifactPaths,
    oracles: Oracles)

  /** The steps of a session that matter to its outcome. */
  datatype Step =
    | LoadCatalog
    | SelectFirmware
    | CheckAvrdude
    | AskBaud
    | AskErase
    | ConfirmFirmware
    | DetectDevice
    | ConfirmDevice
    | Flash(run: Run)
    | Cleanup

  /** How the process ends: an exit status (returning from `main` is status 0), or an
      exception that escapes `main`. */
  datatype Exit = ExitCode(code: int) | Uncaught(error: PyError)

  datatype Outcome = Outcome(steps: seq<Step>, exit: Exit)

  /** The firmware and family `main` holds: the menu's pick, or the last catalog entry with
      the requested id. */
  function Lookup(args: Args, w: World): Option<Selection>
  {
    if args.firmware.None? then Some(w.menuSelection) else LastMatch(Entries(w.projects), args.firmware.value)
  }

  function SelectionSteps(args: Args): (steps: seq<Step>)
    ensures Plain(steps)
  {
    if args.firmware.None? then [SelectFirmware] else []
  }

  /** The device: the `--serial-port` value, or the one the scan picked. */
  function SelectedDevice(args: Args, w: World): Option<string>
  {
    if args.serialPort.Some? then args.serialPort else w.detectedDevice
  }

  function DeviceSteps(args: Args): (steps: seq<Step>)
    ensures Plain(steps)
  {
    if args.serialPort.None? then [DetectDevice] else []
  }

  /** `if selected_device:` — present and not the empty string. */
  predicate Truthy(device: Option<string>)
  {
    device.Some? && |device.value| > 0
  }

  function PromptSteps(c: Choices): (steps: seq<Step>)
    ensures Plain(steps)
    ensures AskBaud in steps <==> c.askedBaud
    ensures AskErase in steps <==> c.askedErase
  {
    (if c.askedBaud then [AskBaud] else []) + (if c.askedErase then [AskErase] else [])
  }

  /** The steps before the prompts hold no prompt, so the prompts shown are the choices' own. */
  lemma PromptsAsked(before: seq<Step>, c: Choices)
    requires AskBaud !in before && AskErase !in before
    ensures AskBaud in before + PromptSteps(c) <==> c.askedBaud
    ensures AskErase in before + PromptSteps(c) <==> c.askedErase
  {
  }

  /** The steps `Settle` adds hold no prompt. */
  lemma SettleKeepsPrompts(before: seq<Step>, after: seq<Step>)
    requires |before| <= |after| && after[..|before|] == before
    requires forall i :: |before| <= i < |after| ==> Interaction(after[i])
    ensures AskBaud in after <==> AskBaud in before
    ensures AskErase in after <==> AskErase in before
  {
    if AskBaud in after {
      var i :| 0 <= i < |after| && after[i] == AskBaud;
      assert i < |before| && before[i] == AskBaud;
    }
    if AskErase in after {
      var i :| 0 <= i < |after| && after[i] == AskErase;
      assert i < |before| && before[i] == AskErase;
    }
  }

  predicate Flashed(o: Outcome)
  {
    exists i :: 0 <= i < |o.steps| && o.steps[i].Flash?
  }

  /** Steps before the flash call: neither the flash nor the cleanup. */
  predicate Plain(steps: seq<Step>)
  {
    forall i :: 0 <= i < |steps| ==> !steps[i].Flash? && steps[i] != Cleanup
  }

  lemma PlainAppend(a: seq<Step>, b: seq<Step>)
    ensures Plain(a) && Plain(b) ==> Plain(a + b)
  {
    assert forall i :: |a| <= i < |a + b| ==> (a + b)[i] == b[i - |a|];
  }

  /** A session that stops before the flash call has neither flashed nor cleaned up. */
  lemma PlainNotFlashed(steps: seq<Step>, exit: Exit)
    requires Plain(steps)
    ensures !Flashed(Outcome(steps, exit)) && Cleanup !in steps
  {
  }

  /** A session that reaches the flash call after plain steps has flashed, with that run. */
  lemma FlashAfterPlain(steps: seq<Step>, tail: seq<Step>, run: Run, exit: Exit)
    requires Plain(steps)
    requires tail == [Flash(run)] || tail == [Flash(run), Cleanup]
    ensures Flashed(Outcome(steps + tail, exit))
    ensures Cleanup in steps + tail <==> tail == [Flash(run), Cleanup]
    ensures AskBaud in steps + tail <==> AskBaud in steps
    ensures AskErase in steps + tail <==> AskErase in steps
  {
    var all := steps + tail;
    assert all[|steps|] == Flash(run);
    if Cleanup in all {
      var i :| 0 <= i < |all| && all[i] == Cleanup;
      assert i >= |steps|;
    }
    if tail == [Flash(run), Cleanup] {
      assert all[|steps| + 1] == Cleanup;
    }
  }

  /** The newer edition's avrdude check accepts `avrdude` or `avrdude.exe`. */
  predicate AvrdudeAvailable(w: World)
  {
    w.avrdudeFound || w.avrdudeExeFound
  }

  function CurrentChoices(args: Args, w: World, family: DeviceFamily): Choices
  {
    ResolveChoices(family.flashMethod == "avrdude", args.baud, args.eraseFlash, args.dontEraseFlash, w.baudAnswer, w.eraseAnswer)
  }

  /** Everything `main` needs before it calls the flash function. */
  predicate CurrentReady(args: Args, w: World)
  {
    && !ConflictingEraseFlags(args.eraseFlash, args.dontEraseFlash)
    && w.catalogLoaded
    && Lookup(args, w).Some?
    && (Lookup(args, w).value.family.flashMethod == "avrdude" ==> AvrdudeAvailable(w))
    && IsAffirmative(w.firmwareAnswer)
    && Truthy(SelectedDevice(args, w))
    && IsAffirmative(w.deviceAnswer)
  }

  /** Where `main` stands just before it would call the flash function: stopped with an exit
      status, or ready with the selection, the settled choices and the device. */
  datatype Prelude =
    | Stopped(steps: seq<Step>, exit: Exit)
    | Ready(steps: seq<Step>, selection: Selection, choices: Choices, device: string)

  /** The steps `Settle` adds. */
  predicate Interaction(s: Step)
  {
    s == ConfirmFirmware || s == DetectDevice || s == ConfirmDevice
  }

  /** The three ways `Settle` can leave the steps: each extends `before` by interactions only. */
  lemma InteractionSteps(args: Args, before: seq<Step>)
    requires Plain(before)
    ensures var first := before + [ConfirmFirmware];
      var scanned := first + DeviceSteps(args);
      var second := scanned + [ConfirmDevice];
      && Plain(first) && Plain(scanned) && Plain(second)
      && first[..|before|] == before && scanned[..|before|] == before && second[..|before|] == before
      && (forall i :: |before| <= i < |first| ==> Interaction(first[i]))
      && (forall i :: |before| <= i < |scanned| ==> Interaction(scanned[i]))
      && (forall i :: |before| <= i < |second| ==> Interaction(second[i]))
      && ConfirmFirmware in second && ConfirmDevice in second
  {
    var first := before + [ConfirmFirmware];
    var scanned := first + DeviceSteps(args);
    var second := scanned + [ConfirmDevice];
    PlainAppend(before, [ConfirmFirmware]);
    PlainAppend(first, DeviceSteps(args));
    PlainAppend(scanned, [ConfirmDevice]);
    assert first[..|before|] == before;
    assert scanned[..|before|] == before;
    assert second[..|before|] == before;
    assert second[|second| - 1] == ConfirmDevice;
    assert second[|before|] == ConfirmFirmware;
    assert forall i :: |first| <= i < |scanned| ==> scanned[i] == DeviceSteps(args)[i - |first|];
    assert forall i :: |before| <= i < |scanned| ==> second[i] == scanned[i];
  }

  /** The firmware confirmation, the device and the device confirmation, common to both
      editions once the choices are settled. A refusal or a missing device exits 0. */
  function Settle(args: Args, w: World, before: seq<Step>, sel: Selection, c: Choices): (p: Prelude)
    requires Plain(before)
    ensures Plain(p.steps)
    ensures |before| <= |p.steps| && p.steps[..|before|] == before
    ensures p.Ready? <==> IsAffirmative(w.firmwareAnswer) && Truthy(SelectedDevice(args, w)) && IsAffirmative(w.deviceAnswer)
    ensures p.Ready? ==> p.selection == sel && p.choices == c && p.device == SelectedDevice(args, w).value
    ensures p.Ready? ==> ConfirmFirmware in p.steps && ConfirmDevice in p.steps
    ensures forall i :: |before| <= i < |p.steps| ==> Interaction(p.steps[i])
    ensures p.Stopped? ==> p.exit == ExitCode(0)
  {
    var first := before + [ConfirmFirmware];
    var scanned := first + DeviceSteps(args);
    var second := scanned + [ConfirmDevice];
    InteractionSteps(args, before);
    if !IsAffirmative(w.firmwareAnswer) then Stopped(first, ExitCode(0))
    else if !Truthy(SelectedDevice(args, w)) then Stopped(scanned, ExitCode(0))
    else if !IsAffirmative(w.deviceAnswer) then Stopped(second, ExitCode(0))
    else Ready(second, sel, c, SelectedDevice(args, w).value)
  }

  /** The part both editions share once the avrdude check has passed: the baud menu and the
      erase prompt exactly as the choices say, then `Settle`. */
  function PromptAndSettle(args: Args, w: World, checked: seq<Step>, sel: Selection, c: Choices): (p: Prelude)
    requires Plain(checked) && |checked| > 0
    requires AskBaud !in checked && AskErase !in checked
    ensures Plain(p.steps)
    ensures |p.steps| > 0 && p.steps[0] == checked[0]
    ensures p.Ready? <==> IsAffirmative(w.firmwareAnswer) && Truthy(SelectedDevice(args, w)) && IsAffirmative(w.deviceAnswer)
    ensures p.Ready? ==> p.selection == sel && p.choices == c && p.device == SelectedDevice(args, w).value
    ensures p.Stopped? ==> p.exit == ExitCode(0)
    ensures AskBaud in p.steps <==> c.askedBaud
    ensures AskErase in p.steps <==> c.askedErase
  {
    var asked := checked + PromptSteps(c);
    PlainAppend(checked, PromptSteps(c));
    assert asked[0] == checked[0];
    PromptsAsked(checked, c);
    var p := Settle(args, w, asked, sel, c);
    SettleKeepsPrompts(asked, p.steps);
    assert p.steps[0] == asked[0];
    p
  }

  /** The newer `main` up to the flash call. */
  function CurrentPrelude(args: Args, w: World): (p: Prelude)
    ensures Plain(p.steps)
    ensures ConflictingEraseFlags(args.eraseFlash, args.dontEraseFlash) ==> p == Stopped([], ExitCode(1))
    ensures !ConflictingEraseFlags(args.eraseFlash, args.dontEraseFlash) ==> |p.steps| > 0 && p.steps[0] == LoadCatalog
    ensures p.Ready? <==> CurrentReady(args, w)
    ensures p.Ready? ==>
      && p.selection == Lookup(args, w).value
      && p.choices == CurrentChoices(args, w, p.selection.family)
      && p.device == SelectedDevice(args, w).value
    ensures p.Stopped? ==> p.exit.ExitCode? && (p.exit.code == 1 <==> CurrentFails(args, w)) && (p.exit.code == 0 || p.exit.code == 1)
    ensures AskBaud in p.steps <==>
      CurrentReachesPrompts(args, w) && CurrentChoices(args, w, Lookup(args, w).value.family).askedBaud
    ensures AskErase in p.steps <==>
      CurrentReachesPrompts(args, w) && CurrentChoices(args, w, Lookup(args, w).value.family).askedErase
  {
    if ConflictingEraseFlags(args.eraseFlash, args.dontEraseFlash) then Stopped([], ExitCode(1))
    else if !w.catalogLoaded then Stopped([LoadCatalog], ExitCode(0))
    else
      var found := [LoadCatalog] + SelectionSteps(args);
      PlainAppend([LoadCatalog], SelectionSteps(args));
      match Lookup(args, w)
      case None => Stopped(found, ExitCode(1))
      case Some(sel) =>
        var isAvrdude := sel.family.flashMethod == "avrdude";
        var checked := found + (if isAvrdude then [CheckAvrdude] else []);
        PlainAppend(found, if isAvrdude then [CheckAvrdude] else []);
        assert checked[0] == LoadCatalog;
        if isAvrdude && !AvrdudeAvailable(w) then Stopped(checked, ExitCode(1))
        else PromptAndSettle(args, w, checked, sel, CurrentChoices(args, w, sel.family))
  }

  /** The newer `main` gets as far as settling the baud and the erase choice. */
  predicate CurrentReachesPrompts(args: Args, w: World)
  {
    && !ConflictingEraseFlags(args.eraseFlash, args.dontEraseFlash)
    && w.catalogLoaded
    && Lookup(args, w).Some?
    && (Lookup(args, w).value.family.flashMethod == "avrdude" ==> AvrdudeAvailable(w))
  }

  /** The ways the newer `main` exits with status 1 before flashing. */
  predicate CurrentFails(args: Args, w: World)
  {
    || ConflictingEraseFlags(args.eraseFlash, args.dontEraseFlash)
    || (w.catalogLoaded && Lookup(args, w).None?)
    || (w.catalogLoaded && Lookup(args, w).Some? && Lookup(args, w).value.family.flashMethod == "avrdude" && !AvrdudeAvailable(w))
  }

  /** The newer `main`. The firmware is flashed with the settled baud and erase choice on the
      chosen device; when the flash function returns, whatever it returned, the downloads are
      removed and the exit is 0; when it raises, the exception escapes and nothing is removed. */
  function MainCurrent(args: Args, w: World): (o: Outcome)
    ensures ConflictingEraseFlags(args.eraseFlash, args.dontEraseFlash) ==> o == Outcome([], ExitCode(1))
    ensures !ConflictingEraseFlags(args.eraseFlash, args.dontEraseFlash) ==> |o.steps| > 0 && o.steps[0] == LoadCatalog
    ensures Flashed(o) <==> CurrentReady(args, w)
    ensures CurrentReady(args, w) ==>
      var sel := Lookup(args, w).value;
      var c := CurrentChoices(args, w, sel.family);
      var run := FlashCurrent(sel.firmware, c.baud, SelectedDevice(args, w).value, c.erase, w.paths, w.oracles);
      if run.result.Raised? then o.steps[|o.steps| - 1] == Flash(run) && o.exit == Uncaught(run.result.error)
      else |o.steps| >= 2 && o.steps[|o.steps| - 2..] == [Flash(run), Cleanup] && o.exit == ExitCode(0)
    ensures Cleanup in o.steps ==> CurrentReady(args, w)
    ensures !CurrentReady(args, w) ==> o.exit.ExitCode? && (o.exit.code == 1 <==> CurrentFails(args, w))
    ensures AskBaud in o.steps <==> AskBaud in CurrentPrelude(args, w).steps
    ensures AskErase in o.steps <==> AskErase in CurrentPrelude(args, w).steps
  {
    var p := CurrentPrelude(args, w);
    match p
    case Stopped(steps, exit) =>
      PlainNotFlashed(steps, exit);
      Outcome(steps, exit)
    case Ready(steps, sel, c, device) =>
      var run := FlashCurrent(sel.firmware, c.baud, device, c.erase, w.paths, w.oracles);
      var tail := if run.result.Raised? then [Flash(run)] else [Flash(run), Cleanup];
      var exit := if run.result.Raised? then Uncaught(run.result.error) else ExitCode(0);
      FlashAfterPlain(steps, tail, run, exit);
      assert (steps + tail)[0] == steps[0];
      Outcome(steps + tail, exit)
  }

  /** What the older `main` needs before it reaches its dispatch on the flash method. */
  predicate LegacyReady(args: Args, w: World)
  {
    && w.catalogLoaded
    && Lookup(args, w).Some?
    && (Lookup(args, w).value.family.flashMethod == "avrdude" ==> w.avrdudeFound)
    && IsAffirmative(w.firmwareAnswer)
    && Truthy(SelectedDevice(args, w))
    && IsAffirmative(w.deviceAnswer)
  }

  function LegacyChoices(args: Args, w: World): Choices
  {
    ResolveChoicesLegacy(args.baud, args.eraseFlash, w.baudAnswer, w.eraseAnswer)
  }

  /** The older `main` gets as far as settling the baud and the erase choice. */
  predicate LegacyReachesPrompts(args: Args, w: World)
  {
    && w.catalogLoaded
    && Lookup(args, w).Some?
    && (Lookup(args, w).value.family.flashMethod == "avrdude" ==> w.avrdudeFound)
  }

  /** The ways the older `main` exits with status 1 before its dispatch. */
  predicate LegacyFails(args: Args, w: World)
  {
    || (w.catalogLoaded && Lookup(args, w).None?)
    || (w.catalogLoaded && Lookup(args, w).Some? && Lookup(args, w).value.family.flashMethod == "avrdude" && !w.avrdudeFound)
  }

  /** The older `main` up to its dispatch on the flash method. */
  function LegacyPrelude(args: Args, w: World): (p: Prelude)
    ensures Plain(p.steps)
    ensures |p.steps| > 0 && p.steps[0] == LoadCatalog
    ensures p.Ready? <==> LegacyReady(args, w)
    ensures p.Ready? ==>
      && p.selection == Lookup(args, w).value
      && p.choices == LegacyChoices(args, w)
      && p.device == SelectedDevice(args, w).value
    ensures p.Stopped? ==> p.exit.ExitCode? && (p.exit.code == 1 <==> LegacyFails(args, w)) && (p.exit.code == 0 || p.exit.code == 1)
    ensures AskBaud in p.steps <==> LegacyReachesPrompts(args, w) && args.baud.None?
    ensures AskErase in p.steps <==> LegacyReachesPrompts(args, w) && args.eraseFlash.None?
  {
    if !w.catalogLoaded then Stopped([LoadCatalog], ExitCode(0))
    else
      var found := [LoadCatalog] + SelectionSteps(args);
      PlainAppend([LoadCatalog], SelectionSteps(args));
      match Lookup(args, w)
      case None => Stopped(found, ExitCode(1))
      case Some(sel) =>
        var isAvrdude := sel.family.flashMethod == "avrdude";
        var checked := found + (if isAvrdude then [CheckAvrdude] else []);
        PlainAppend(found, if isAvrdude then [CheckAvrdude] else []);
        assert checked[0] == LoadCatalog;
        if isAvrdude && !w.avrdudeFound then Stopped(checked, ExitCode(1))
        else PromptAndSettle(args, w, checked, sel, LegacyChoices(args, w))
  }

  /** The end of the older `main` after a flash run: the flash is its last step, and the
      exit is the escaping exception or 0; there is no cleanup. */
  function FinishLegacy(steps: seq<Step>, run: Run): (o: Outcome)
    requires Plain(steps) && |steps| > 0
    ensures |o.steps| > 0 && o.steps[0] == steps[0] && o.steps[|o.steps| - 1] == Flash(run)
    ensures o.exit == (if run.result.Raised? then Uncaught(run.result.error) else ExitCode(0))
    ensures Flashed(o) && Cleanup !in o.steps
    ensures AskBaud in o.steps <==> AskBaud in steps
    ensures AskErase in o.steps <==> AskErase in steps
  {
    var exit := if run.result.Raised? then Uncaught(run.result.error) else ExitCode(0);
    FlashAfterPlain(steps, [Flash(run)], run, exit);
    assert (steps + [Flash(run)])[0] == steps[0];
    Outcome(steps + [Flash(run)], exit)
  }

  /** The older `main`: the esptool path flashes with the selected family record and exits 0
      without cleaning up; the avrdude path is not implemented and, like an unknown flash
      method, exits 1. */
  function MainLegacy(args: Args, w: World): (o: Outcome)
    ensures |o.steps| > 0 && o.steps[0] == LoadCatalog
    ensures Flashed(o) <==> LegacyReady(args, w) && Lookup(args, w).value.family.flashMethod == "esptool"
    ensures Flashed(o) ==>
      var sel := Lookup(args, w).value;
      var c := LegacyChoices(args, w);
      var run := FlashLegacy(Some(sel.family), sel.firmware, c.baud, SelectedDevice(args, w).value, c.erase, w.paths, w.oracles);
      o.steps[|o.steps| - 1] == Flash(run) && o.exit == (if run.result.Raised? then Uncaught(run.result.error) else ExitCode(0))
    ensures Cleanup !in o.steps
    ensures LegacyReady(args, w) && Lookup(args, w).value.family.flashMethod != "esptool" ==> o.exit == ExitCode(1)
    ensures !LegacyReady(args, w) ==> o.exit.ExitCode? && (o.exit.code == 1 <==> LegacyFails(args, w))
    ensures AskBaud in o.steps <==> AskBaud in LegacyPrelude(args, w).steps
    ensures AskErase in o.steps <==> AskErase in LegacyPrelude(args, w).steps
  {
    var p := LegacyPrelude(args, w);
    match p
    case Stopped(steps, exit) =>
      PlainNotFlashed(steps, exit);
      Outcome(steps, exit)
    case Ready(steps, sel, c, device) =>
      if sel.family.flashMethod == "esptool" then
        FinishLegacy(steps, FlashLegacy(Some(sel.family), sel.firmware, c.baud, device, c.erase, w.paths, w.oracles))
      else
        PlainNotFlashed(steps, ExitCode(1));
        Outcome(steps, ExitCode(1))
  }

  /** For an avrdude family the newer `main` shows neither the baud menu nor the erase
      prompt, and passes the flash function 115200 baud and erase=True, whatever the flags say.
      The avrdude command uses neither value. */
  lemma AvrdudeSkipsPrompts(args: Args, w: World)
    requires Lookup(args, w).Some? && Lookup(args, w).value.family.flashMethod == "avrdude"
    ensures AskBaud !in MainCurrent(args, w).steps && AskErase !in MainCurrent(args, w).steps
    ensures CurrentReady(args, w) ==>
      var sel := Lookup(args, w).value;
      var run := FlashCurrent(sel.firmware, BaudRate(AvrdudeBaudRate), SelectedDevice(args, w).value, true, w.paths, w.oracles);
      Flash(run) in MainCurrent(args, w).steps
  {
    var o := MainCurrent(args, w);
    if CurrentReady(args, w) {
      var sel := Lookup(args, w).value;
      assert CurrentChoices(args, w, sel.family).baud == BaudRate(AvrdudeBaudRate);
      assert CurrentChoices(args, w, sel.family).erase;
      var run := FlashCurrent(sel.firmware, BaudRate(AvrdudeBaudRate), SelectedDevice(args, w).value, true, w.paths, w.oracles);
      if run.result.Raised? {
        assert o.steps[|o.steps| - 1] == Flash(run);
      } else {
        assert o.steps[|o.steps| - 2] == Flash(run);
      }
    }
  }

  /** The conditions under which both editions treat a selection alike: no `--dont-erase-flash`,
      and an esptool family whose firmware points back at it. The world, and so the website's
      answers to the web check and the download, is the same for both. */
  predicate Comparable(args: Args, w: World)
  {
    && args.dontEraseFlash.None?
    && Lookup(args, w).Some? && Lookup(args, w).value.family.flashMethod == "esptool"
    && Lookup(args, w).value.firmware.family == Some(Lookup(args, w).value.family)
  }

  /** For such a selection both editions settle the same choices and, when they reach the
      flash, run the same flash. */
  lemma ComparableRunsAlike(args: Args, w: World)
    requires Comparable(args, w)
    ensures CurrentChoices(args, w, Lookup(args, w).value.family) == LegacyChoices(args, w)
    ensures CurrentReady(args, w) ==>
      var sel := Lookup(args, w).value;
      var c := LegacyChoices(args, w);
      var device := SelectedDevice(args, w).value;
      FlashLegacy(Some(sel.family), sel.firmware, c.baud, device, c.erase, w.paths, w.oracles)
        == FlashCurrent(sel.firmware, c.baud, device, c.erase, w.paths, w.oracles)
  {
    var sel := Lookup(args, w).value;
    ResolutionMatchesLegacy(args.baud, args.eraseFlash, w.baudAnswer, w.eraseAnswer);
    if CurrentReady(args, w) {
      var c := LegacyChoices(args, w);
      FlashLegacyMatchesCurrent(sel.family, sel.firmware, c.baud, SelectedDevice(args, w).value, c.erase, w.paths, w.oracles);
    }
  }

  /** For such a selection the two editions end with the same exit. */
  lemma EditionsExitAlike(args: Args, w: World)
    requires Comparable(args, w)
    ensures MainCurrent(args, w).exit == MainLegacy(args, w).exit
  {
    ComparableRunsAlike(args, w);
  }

  /** For such a selection one edition flashes exactly when the other does, and the newer one
      ends either on the same flash step or on the cleanup after it. */
  lemma EditionsFlashAlike(args: Args, w: World)
    requires Comparable(args, w)
    ensures Flashed(MainCurrent(args, w)) <==> Flashed(MainLegacy(args, w))
    ensures Flashed(MainLegacy(args, w)) ==>
      MainCurrent(args, w).steps[|MainCurrent(args, w).steps| - 1] == Cleanup
      || MainCurrent(args, w).steps[|MainCurrent(args, w).steps| - 1] == MainLegacy(args, w).steps[|MainLegacy(args, w).steps| - 1]
  {
    ComparableRunsAlike(args, w);
  }

  /** The newer `main` shows the baud menu only when `--baud` is absent and the erase prompt
      only when neither erase flag is given, and neither of them for an avrdude family. */
  lemma CurrentPromptsOnlyWhenUnset(args: Args, w: World)
    ensures AskBaud in MainCurrent(args, w).steps <==>
      CurrentReachesPrompts(args, w) && Lookup(args, w).value.family.flashMethod != "avrdude" && args.baud.None?
    ensures AskErase in MainCurrent(args, w).steps <==>
      && CurrentReachesPrompts(args, w) && Lookup(args, w).value.family.flashMethod != "avrdude"
      && args.eraseFlash.None? && args.dontEraseFlash.None?
  {
    var p := CurrentPrelude(args, w);
    if CurrentReachesPrompts(args, w) {
      var family := Lookup(args, w).value.family;
      var c := CurrentChoices(args, w, family);
      assert family.flashMethod == "avrdude" ==> !c.askedBaud && !c.askedErase;
    }
  }

  /** The older `main` shows the baud menu only when `--baud` is absent and the erase prompt
      only when `--erase-flash` is absent, for every flash method. */
  lemma LegacyPromptsOnlyWhenUnset(args: Args, w: World)
    ensures AskBaud in MainLegacy(args, w).steps <==> LegacyReachesPrompts(args, w) && args.baud.None?
    ensures AskErase in MainLegacy(args, w).steps <==> LegacyReachesPrompts(args, w) && args.eraseFlash.None?
  {
    var p := LegacyPrelude(args, w);
  }
}

=== FILE: text.dfy ===
/** The string handling the flasher relies on: reading a yes/no answer the way
    `input(...).strip().lower() in ["y", "yes"]` does, and `str()` of a baud rate. */
module Text {

  /** Python's `str.isspace()`: the characters `str.strip()` removes when called without
      arguments. */
  predicate IsSpace(c: char)
  {
    || '\t' <= c <= '\r'
    || '\U{1C}' <= c <= '\U{1F}'
    || c == ' '
    || c == '\U{85}'
    || c == '\U{A0}'
    || c == '\U{1680}'
    || '\U{2000}' <= c <= '\U{200A}'
    || c == '\U{2028}'
    || c == '\U{2029}'
    || c == '\U{202F}'
    || c == '\U{205F}'
    || c == '\U{3000}'
  }

  predicate AllSpace(s: string)
  {
    forall i :: 0 <= i < |s| ==> IsSpace(s[i])
  }

  /** `s.lstrip()`: drop leading whitespace. */
  function StripStart(s: string): (r: string)
    ensures |r| <= |s| && r == s[|s| - |r|..]
    ensures AllSpace(s[..|s| - |r|])
    ensures |r| > 0 ==> !IsSpace(r[0])
    decreases |s|
  {
    if |s| > 0 && IsSpace(s[0]) then StripStart(s[1..]) else s
  }

  /** `s.rstrip()`: drop trailing whitespace. */
  function StripEnd(s: string): (r: string)
    ensures |r| <= |s| && r == s[..|r|]
    ensures AllSpace(s[|r|..])
    ensures |r| > 0 ==> !IsSpace(r[|r| - 1])
    decreases |s|
  {
    if |s| > 0 && IsSpace(s[|s| - 1]) then StripEnd(s[..|s| - 1]) else s
  }

  /** `s.strip()`. */
  function Strip(s: string): string
  {
    StripEnd(StripStart(s))
  }

  /** Lower-case an ASCII letter; every other character is kept. Python's `lower()` also
      maps non-ASCII letters, but none of them to `y`, `e` or `s`, so the two agree on
      whether the result is `"y"` or `"yes"`. */
  function LowerChar(c: char): char
  {
    if 'A' <= c <= 'Z' then (c as int - 'A' as int + 'a' as int) as char else c
  }

  function Lower(s: string): (r: string)
    ensures |r| == |s|
    ensures forall i :: 0 <= i < |s| ==> r[i] == LowerChar(s[i])
  {
    seq(|s|, i requires 0 <= i < |s| => LowerChar(s[i]))
  }

  /** Lower-casing turns an answer into `"y"` exactly when it is `y` or `Y`, and into `"yes"`
      exactly when it is y, e, s in that order, each letter in either case. */
  lemma LowerIsYes(s: string)
    ensures Lower(s) == "y" <==> s == "y" || s == "Y"
    ensures Lower(s) == "yes" <==>
      && |s| == 3
      && (s[0] == 'y' || s[0] == 'Y') && (s[1] == 'e' || s[1] == 'E') && (s[2] == 's' || s[2] == 'S')
  {
    if |s| == 1 {
      assert Lower(s) == [LowerChar(s[0])];
    }
    if |s| == 3 {
      assert Lower(s) == [LowerChar(s[0]), LowerChar(s[1]), LowerChar(s[2])];
    }
  }

  /** The answer test used by every confirmation prompt. */
  predicate IsAffirmative(answer: string)
  {
    var word := Lower(Strip(answer));
    word == "y" || word == "yes"
  }

  /** `answer[i..j]` is a `y`/`yes` in any letter case with only whitespace around it. */
  ghost predicate PaddedYes(answer: string, i: int, j: int)
  {
    && 0 <= i <= j <= |answer|
    && AllSpace(answer[..i])
    && AllSpace(answer[j..])
    && (Lower(answer[i..j]) == "y" || Lower(answer[i..j]) == "yes")
  }

  /** Stripping whitespace off a word that neither starts nor ends with whitespace gives
      the word back. */
  lemma StripPadded(pre: string, word: string, post: string)
    requires AllSpace(pre) && AllSpace(post)
    requires |word| > 0 && !IsSpace(word[0]) && !IsSpace(word[|word| - 1])
    ensures Strip(pre + word + post) == word
  {
    assert pre + word + post == pre + (word + post);
    StripStartPadded(pre, word + post);
    StripEndPadded(word, post);
  }

  lemma {:induction false} StripStartPadded(pre: string, rest: string)
    requires AllSpace(pre)
    requires |rest| > 0 && !IsSpace(rest[0])
    ensures StripStart(pre + rest) == rest
    decreases |pre|
  {
    if |pre| > 0 {
      assert (pre + rest)[1..] == pre[1..] + rest;
      StripStartPadded(pre[1..], rest);
    } else {
      assert pre + rest == rest;
    }
  }

  lemma {:induction false} StripEndPadded(rest: string, post: string)
    requires AllSpace(post)
    requires |rest| > 0 && !IsSpace(rest[|rest| - 1])
    ensures StripEnd(rest + post) == rest
    decreases |post|
  {
    if |post| > 0 {
      assert (rest + post)[..|rest + post| - 1] == rest + post[..|post| - 1];
      StripEndPadded(rest, post[..|post| - 1]);
    } else {
      assert rest + post == rest;
    }
  }

  /** A character that lower-cases to `y` or `s` is a letter, not whitespace. */
  lemma LetterNotSpace(c: char)
    requires LowerChar(c) == 'y' || LowerChar(c) == 's'
    ensures !IsSpace(c)
  {
  }

  /** The stripped answer sits inside the original with only whitespace around it. */
  lemma AffirmativeIsPadded(answer: string)
    requires IsAffirmative(answer)
    ensures exists i, j :: PaddedYes(answer, i, j)
  {
    var s := StripStart(answer);
    var t := Strip(answer);
    var i := |answer| - |s|;
    var j := i + |t|;
    assert answer[i..j] == t;
    assert answer[j..] == s[|t|..];
    assert PaddedYes(answer, i, j);
  }

  /** A `y`/`yes` with only whitespace around it strips back to itself. */
  lemma PaddedIsAffirmative(answer: string, i: int, j: int)
    requires PaddedYes(answer, i, j)
    ensures IsAffirmative(answer)
  {
    var word := answer[i..j];
    var low := Lower(word);
    assert low[0] == LowerChar(word[0]);
    assert low[|low| - 1] == LowerChar(word[|word| - 1]);
    LetterNotSpace(word[0]);
    LetterNotSpace(word[|word| - 1]);
    assert answer == answer[..i] + word + answer[j..];
    StripPadded(answer[..i], word, answer[j..]);
  }

  /** An answer is affirmative exactly when it is `y` or `yes`, in any letter case,
      surrounded by nothing but whitespace. */
  lemma AffirmativeIffPaddedYes(answer: string)
    ensures IsAffirmative(answer) <==> exists i, j :: PaddedYes(answer, i, j)
  {
    if IsAffirmative(answer) {
      AffirmativeIsPadded(answer);
    }
    if exists i, j :: PaddedYes(answer, i, j) {
      var i, j :| PaddedYes(answer, i, j);
      PaddedIsAffirmative(answer, i, j);
    }
  }

  /** The decimal digit for 0..9. */
  function Digit(d: nat): char
    requires d < 10
  {
    ('0' as int + d) as char
  }

  predicate IsDigit(c: char)
  {
    '0' <= c <= '9'
  }

  function DigitValue(c: char): nat
    requires IsDigit(c)
  {
    c as int - '0' as int
  }

  /** `str(n)` for a non-negative Python int: decimal digits, no leading zero. */
  function DecimalString(n: nat): (s: string)
    ensures |s| >= 1
    ensures forall i :: 0 <= i < |s| ==> IsDigit(s[i])
    ensures |s| > 1 ==> s[0] != '0'
    decreases n
  {
    if n < 10 then [Digit(n)] else DecimalString(n / 10) + [Digit(n % 10)]
  }

  /** The number a string of decimal digits denotes. */
  function DecimalValue(s: string): nat
    requires forall i :: 0 <= i < |s| ==> IsDigit(s[i])
    decreases |s|
  {
    if |s| == 0 then 0 else 10 * DecimalValue(s[..|s| - 1]) + DigitValue(s[|s| - 1])
  }

  /** `int(str(n)) == n`: the rendered baud rate denotes the rate itself. */
  lemma {:induction false} DecimalRoundTrip(n: nat)
    ensures DecimalValue(DecimalString(n)) == n
    decreases n
  {
    var s := DecimalString(n);
    if n >= 10 {
      assert s[..|s| - 1] == DecimalString(n / 10);
      DecimalRoundTrip(n / 10);
    }
  }

  /** Distinct rates render as distinct strings. */
  lemma DecimalStringInjective(m: nat, n: nat)
    requires DecimalString(m) == DecimalString(n)
    ensures m == n
  {
    DecimalRoundTrip(m);
    DecimalRoundTrip(n);
  }
}
